=== FILE: README.md ===
# kilobarFS in Dafny

A model of the in-memory file-system tree of kilobarFS (`main.c`). The tree is
made of inodes. An inode is a directory or a File, with an id, a name, a
read-only flag and a size. A directory owns its entries in insertion order, in
a slot array whose size grows to the next power of two when it is full. The
model covers every function of `main.c` except `main`:

- the master-file-table decoder `load_inode_from_table`, with the record layout
  it reads, and the `next_pow2` growth rule;
- `init_inode`;
- `create_dir` and `create_file`;
- `find_dir` and `find_file`;
- the release order of `free_fs`;
- the listing of `print_fs` and `_print_fs`.

The tree is an immutable `Node` datatype that owns its children as a
`seq<Node>`. The global `ID_COUNTER` is passed in and returned explicitly.

Modules, one per file:

- `Results` holds the error and option types.
- `Bytes` holds bytes and the little-endian int32 fields.
- `Pow2` holds `next_pow2`, both bit for bit on a 32-bit word and on the
  integers.
- `Inode` holds the node, `init_inode`, well-formedness, paths and node count.
- `Table` is the decoder. It also describes, record by record, the tree a
  table holds, and proves that the decoder returns exactly that tree.
- `Encoder` is a table writer. It is a right inverse of the decoder on
  encodable trees: decoding what it writes gives the tree back. The other
  direction does not hold, because the writer zeroes the slot bytes and
  writes flags as 0 or 1.
- `Namespace` holds create and find.
- `Ids` covers id uniqueness and the counter.
- `Release` covers `free_fs`.
- `Printer` covers `print_fs`.

Decisions where the source leaves room:

- **Table integers.** Fields are little-endian two's-complement int32, as
  `memcpy` produces on the 64-bit hosts the code targets. The placeholder
  slots are 8 bytes wide.
- **Bounds checks.** The source reads the table with no bounds check at all.
  The model checks every read and reports `TruncatedInput`.
- **Bad lengths and counts.** A name length below one is reported as
  `MalformedRecord`, and so is a negative child count. The source keeps zero
  children for a negative count and skips no slots.
- **Names.** A name is the bytes before the first zero within the declared
  length, which is what `strncpy` leaves there.
- **File records with a positive child count.** Their slots are skipped and
  no child record is read. The model keeps no children for them and keeps the
  count as their slot count, like the source's `entries_size`.
- **Directory check.** `create_*` and `find_*` on a File are reported as
  `NotADirectory`. `find_*` exits in the source, and `create_*` does not
  check.
- **`next_pow2` overflow.** When `next_pow2` would overflow a C `int`
  (capacity + 1 > 2^30), the model reports `ResourceExhausted`.

## Model

| member | source | states |
|---|---|---|
| Bytes.I32AtInRange | main.c:51-56 | Any four table bytes read as an int32 inside the int32 range. Writing that value back gives the same four bytes. |
| Bytes.I32RoundTrip | main.c:66-69 | Four bytes written for an int32 read back as that int32. |
| Inode.InitInode | main.c:31-46 | The blank inode is a well-formed File with no children. It is a single node that no traversal descends into. |
| Pow2.NextPow2Bits | main.c:20-29 | On the 32-bit word, for 1 ≤ x ≤ 2^30, decrement, bit smearing and increment give a single set bit r with x ≤ r < 2x. So r is the least power of two ≥ x. |
| Pow2.NextPow2 | main.c:20-29 | On the integers, `next_pow2(x)` is a power of two with x ≤ r < 2x. |
| Pow2.NextPow2Least | main.c:20-29 | No power of two ≥ x is smaller than `next_pow2(x)`. |
| Pow2.NextPow2OfPow2 | main.c:20-29 | A power of two is returned unchanged. |
| Pow2.GrowCapacity | main.c:98-99 | A full store grows from 0 slots to 1 slot, and from a power of two s to 2s slots. |
| Table.NameFrom | main.c:58-59 | The name has no zero byte. It is a prefix of the bytes within the declared length, ended by the first zero when one is there. |
| Table.Decode | main.c:48-91 | A decoded subtree's cursor ends inside the buffer, past at least one minimal record. Decoding fails only with `TruncatedInput` or `MalformedRecord`. |
| Table.DecodeChildren | main.c:80-85 | Decoding siblings leaves the cursor inside the buffer and not before where it started. It fails only with `TruncatedInput` or `MalformedRecord`. |
| Table.LoadTable | main.c:48-91 | A loaded tree is well formed, and the cursor ends inside the table. The counter is one past the id of the last record in pre-order. Loading fails only with `TruncatedInput` or `MalformedRecord`. |
| Table.ReadRecord | main.c:51-79 | The outcome is fixed for every buffer. `TruncatedInput` when fewer than 8 bytes are left, when the name and the fixed fields after it run past the end, or when the slots do. `MalformedRecord` for a declared name length L below 1 or a negative child count N. Otherwise each field comes from its own offset: the id at 0, L at 4, the name from the L bytes after, the directory and read-only flags as "any nonzero byte", then the size and N. The cursor moves exactly over 4+4+L+1+1+4+4+8·N bytes. |
| Table.DecodeShape | main.c:48-91 | A decoded subtree is well formed and keeps its first record's id. A directory gets exactly as many children as its slot count. A File keeps no children, but its N slots are still skipped: its cursor moves exactly over its own record. The counter ends one past the id of the last record decoded in pre-order, not past the largest id. |
| Table.DecodeChildrenShape | main.c:80-85 | Decoding N sibling records gives exactly N well-formed subtrees. The counter is left at one past the last of them. |
| Table.DecodeParsed | main.c:48-91 | Whatever the decoder returns is the tree the table holds there. Each record reads as its node's fields. A directory has one child per declared slot. The children follow the slots and each other in table order, each starting where the previous one ends. The cursor stops exactly at the end of the records, each measured by its declared name length and count. |
| Table.DecodeChildrenParsed | main.c:80-85 | N decoded siblings are held one after the other in table order, and the cursor stops where the last one ends. |
| Table.ParsedDecodes | main.c:48-91 | Conversely, a tree the table holds at a position is what the decoder returns there, with the cursor at the end of its records. |
| Table.ParsedAllDecodes | main.c:80-85 | Siblings held one after the other decode as those siblings, in that order. |
| Table.DecodeExactly | main.c:48-91 | The decoder returns the tree n exactly when the table holds n, and its cursor is then at the end of the records of n. |
| Table.LoadParsed | main.c:48-91 | A loaded tree is the tree the table holds from byte 0, and the cursor ends where its records end. |
| Table.EndBounds | main.c:51-79 | The records of a held tree begin with the first record's fixed fields, name and slots, and end inside the buffer. |
| Table.ReadRecordPrefix | main.c:51-79 | A record reads the same from any prefix of the buffer that still holds it, and as `TruncatedInput` from a prefix that cuts it. |
| Table.ParsedShrink | main.c:48-91 | The records of a held tree are held the same, with the same end, by any prefix of the buffer that keeps them all. |
| Table.ParsedPrefix | main.c:48-91 | A prefix of the buffer that cuts into the records of a held tree decodes as `TruncatedInput`. |
| Table.ParsedAllPrefix | main.c:80-85 | A prefix that cuts into the records of held siblings makes their decoding fail with `TruncatedInput`. |
| Table.TruncatedTable | main.c:48-91 | Every prefix of a loadable table that stops before the end of its records fails to load with `TruncatedInput`. |
| Table.NegativeCountMalformed | main.c:68-72 | A record whose child count is negative fails to decode with `MalformedRecord`, whatever follows it. |
| Table.RecordErrorPropagates | main.c:48-91 | A subtree whose first record cannot be read fails to decode with exactly that record's error. |
| Table.SiblingErrorPropagates | main.c:80-85 | When the siblings before one are held in the table and that one's subtree fails to decode, decoding the siblings fails with the same error, of the same kind. |
| Table.ChildErrorPropagates | main.c:80-85 | When a directory's earlier children are held and the next child's subtree fails to decode, the directory fails with that same error. Applied level by level, an error at any depth reaches the root with its kind. |
| Table.ChildNegativeCountMalformed | main.c:68-85 | A negative count in a child record, after held siblings, makes its directory fail with `MalformedRecord`. |
| Encoder.DecodeLaid | main.c:51-85 | Records laid out from `pos` decode back to the tree. The cursor ends exactly at pos + 4+4+L+1+1+4+4+8·N of every record, summed over the tree. |
| Encoder.DecodeEncode | main.c:48-91 | Wherever the table bytes of a tree sit in a buffer, decoding from there gives the tree back. The cursor moves exactly past those bytes and the counter ends past the last pre-order id. |
| Encoder.TableRoundTrip | main.c:48-91 | Loading the table written for a tree gives the same tree, consumes the whole table, and sets the counter to the last pre-order id + 1. |
| Encoder.TruncatedEncoding | main.c:48-91 | Every strict prefix of a written table fails to load with `TruncatedInput`. |
| Namespace.Room | main.c:98-105 | A store with a free slot keeps its capacity. A full store grows to the power of two r with capacity + 1 ≤ r < 2·(capacity + 1), the only one there, which is `next_pow2(capacity + 1)`. The result always has room for one more entry. It fails, with `ResourceExhausted`, exactly when that call would overflow. |
| Namespace.Create | main.c:93-115 | It fails exactly when the node is writable and either not a directory or full with `capacity + 1` past the `next_pow2` limit, so a create on a writable directory with a free slot always succeeds. On a read-only node nothing changes and no id is used. Otherwise one new entry is appended after all the unchanged earlier entries. It has the counter's value as its id and the given name, kind and flag. The counter advances by one, and the other fields of the directory are kept. Count ≤ capacity is preserved. The capacity is unchanged while a slot is free and becomes `next_pow2(capacity + 1)` when the store was full. |
| Namespace.NewEntry | main.c:107-112 | The new entry starts as a blank inode: no children, no slots, a single node. With a name free of zero bytes it is well formed. |
| Namespace.CreateGrows | main.c:98-99 | Through create, a full store of 0 slots grows to 1 slot, and a full store of a power of two s slots grows to 2s. |
| Namespace.CreateDir | main.c:107-114 | A successful `create_dir` adds exactly one entry at the end: a fresh directory inode with the counter as id, the name and the read-only flag. |
| Namespace.CreateFile | main.c:117-139 | A successful `create_file` adds exactly one entry at the end: a File with the counter as id, the name and the flag. This is the corrected behaviour; see Findings. |
| Namespace.CreateFileAsWritten | main.c:131-138 | As written, `create_file` stores the id, name, kind and flag into the directory itself, and appends a blank inode. |
| Namespace.CreateFileAsWrittenLosesFile | main.c:131-138 | As written, any writable well-formed directory becomes a File that still owns children, and `find_file` on it fails. The corrected CreateFile keeps a well-formed directory in which `find_file` finds the new File. |
| Namespace.FirstMatch | main.c:147-151 | The result is the first index of an entry of the wanted kind with exactly the wanted name, scanning in insertion order. None means no entry matches. |
| Namespace.Find | main.c:141-167 | It fails exactly when the start node is not a directory. Otherwise it returns the first matching entry in insertion order, or nothing when none matches. |
| Namespace.FindDir | main.c:141-153 | A found entry is a directory with exactly that name, never a File of the same name. |
| Namespace.FindFile | main.c:155-167 | A found entry is a File with exactly that name, never a directory of the same name. |
| Namespace.FirstMatchAppend | main.c:113-114 | Appending an entry leaves an earlier first match unchanged. The new entry becomes the match exactly when nothing before it matched. |
| Namespace.FindAfterCreate | main.c:107-114 | After a create, every lookup answers as before, except that a lookup for the new name and kind that found nothing now finds the new entry. |
| Namespace.CreateThenFind | main.c:107-114 | A name created where no entry of that kind had it is then found at the new index. |
| Namespace.CreateWellFormed | main.c:93-115 | Create keeps a well-formed tree well formed. |
| Namespace.CreateAt | main.c:93-115 | A create at the node a path leads to, as on a directory `find_dir` returned. It succeeds exactly when a create on that node alone does. The node at the path becomes that create's result and the counter advances as it does. A read-only node leaves the whole tree unchanged. The root keeps its own fields and every child off the path. |
| Namespace.CreateAtFrame | main.c:93-115 | Every directory the path passes through above the target keeps its own fields, the same number of children, and every child except the one the path continues into. Only the target is changed by the insertion. |
| Ids.MaxId | main.c:52 | The largest id of a tree, as the corrected loader uses it: it is one of the ids, and no id exceeds it. |
| Ids.CreateIds | main.c:108 | A create adds exactly the counter's value to the tree's ids, after all the others. |
| Ids.CreateKeepsFresh | main.c:108 | If ids are distinct and below the counter before a create in the node handed to it, they still are after it. |
| Ids.CreateAtIds | main.c:108 | A create in a writable node anywhere in the tree adds exactly the counter's value to the multiset of the tree's ids. |
| Ids.CreateAtKeepsFresh | main.c:93-115 | If ids are distinct and below the counter before a create at any node of the tree, they still are after it. |
| Ids.LoadFresh | main.c:52 | The corrected loader succeeds exactly when the decoder does, and gives the same well-formed tree. Its counter is above every id in the tree. |
| Ids.LoadFreshThenCreate | main.c:52 | A table with distinct ids, loaded by the corrected loader, keeps its ids distinct and below the counter through a create at the root. |
| Ids.LoadFreshThenCreateAt | main.c:52 | A table with distinct ids, loaded by the corrected loader, keeps its ids distinct and below the counter through a create at any node a path reaches. That node holds no more children than it has slots for, so the create applies to it. |
| Ids.CollidingTableLoads | main.c:52 | The table of "/" with id 2, holding one File with id 1, loads with the counter at 2. |
| Ids.CollidingCreate | main.c:108 | In that tree, a `create_dir` at the root with the counter at 2 repeats the root's id. |
| Ids.LastIdCounterCollides | main.c:52 | As written, loading that table and then creating a directory at its root gives two entries the same id. |
| Release.Release | main.c:169-176 | The node itself is released last, and every path released before it lies strictly below it. |
| Release.ReleaseFrom | main.c:170-172 | Every path the loop releases from child i on descends into one of the children i, i+1, and so on. |
| Release.ReleaseShape | main.c:169-176 | `free_fs` releases one node per node of the tree. Each is at a path that leads to a node, and paths descend only into directories, so a File's slots are never traversed. Every node comes after everything below it and after its earlier siblings' subtrees. |
| Release.ReleaseFromShape | main.c:170-172 | The children of a directory are released one whole subtree after the other, in insertion order, each a node below it. |
| Release.ConcatShape | main.c:170-172 | The paths released for child i, each extended by i, followed by those released for the later children, are all nodes below the directory, in post-order. |
| Release.ReleaseOnce | main.c:169-176 | No node is released twice. |
| Release.ReleaseCovers | main.c:169-176 | Every node of the tree is released. |
| Release.ReleaseExactlyOnce | main.c:169-176 | A path is released if and only if it leads to a node. The release list has no repeats, and its length is the node count. |
| Printer.Render | main.c:183 | A line is its indentation in spaces, then "- ", the name, an optional "/" and a newline. |
| Printer.PrintFs | main.c:197-205 | The node's own line comes first and is the only line without indentation. |
| Printer.Listing | main.c:178-195 | Every line is indented at least by the starting indentation. Lines at exactly that indentation name entries of the directory. |
| Printer.DirLines | main.c:180-187 | Every line is indented at least by the indentation. The lines at exactly that indentation carry a "/" and name entries of the directory. |
| Printer.FileLines | main.c:189-194 | At most one line per remaining entry. Each is at exactly the indentation, has no "/", and names an entry of the directory. |
| Printer.PrintOrder | main.c:197-205 | The node `print_fs` is called on is printed first. |
| Printer.PrintOrderShape | main.c:178-205 | The print order lists one path per node, each leading to a node. It is sorted so that a node comes before everything below it. Where two paths part, a directory entry comes before a File entry, and entries of one kind come in insertion order. |
| Printer.DirsFromShape | main.c:180-187 | The first loop lists only directory entries, each followed by its subtree, in insertion order. |
| Printer.FilesFromShape | main.c:189-194 | The second loop lists only File entries, one line each, in insertion order, and does not expand them. |
| Printer.BlockShape | main.c:183-184 | A directory entry's line is followed by its whole subtree, all below that entry, in print order. |
| Printer.CountSplit | main.c:180-194 | Between them, the two loops list as many lines as there are nodes below the directory. |
| Printer.PrintOnce | main.c:178-205 | No node is printed twice. |
| Printer.PrintCovers | main.c:178-205 | Every node of the tree is printed. |
| Printer.PrintExactlyOnce | main.c:178-205 | A path is printed if and only if it leads to a node, and the root comes first. The listing has no repeats, and its length is the node count. |
| Printer.ListingLines | main.c:178-195 | `_print_fs(n, indent)` prints, line for line, the lines of the entries of `n` in print order. |
| Printer.DirLinesMatch | main.c:180-187 | The first loop prints, line for line, the lines of the directory entries and their subtrees. |
| Printer.FileLinesMatch | main.c:189-194 | The second loop prints, line for line, the lines of the File entries. |
| Printer.BlockLines | main.c:183-184 | A directory entry's line and its listing one level deeper are the lines of its subtree. |
| Printer.PrintFsLines | main.c:197-205 | `print_fs` prints one line per node, and line k is the line of the k-th node in print order. |
| Printer.OutputLines | main.c:178-205 | The bytes `print_fs` writes are the rendered lines of the tree's nodes, one per node, in print order. |

## Left out

- `main` is left out: it opens, seeks and reads the table file, which is I/O. Standard output is left out too. The model produces the lines and their bytes, not a console write.
- Allocation failures are left out. `malloc`, `realloc` and `strdup` can fail, and the source then calls `perror` and `exit`. Memory is unbounded in the model.
- Raw pointers are left out. Children are owned by value. The uninitialised slots of a File record with a positive count have no counterpart: such a File keeps no children.
- Table.ReadRecord: it reports `TruncatedInput` where the source would read past the buffer. It reports `MalformedRecord` for a name length below one or a negative child count, where the source has undefined behaviour or keeps zero children.
- Namespace.Create: on a writable File node it reports `NotADirectory`. The source does not check, and fills the File's slot array.
- Namespace.Find: on a File it reports `NotADirectory`, where the source prints an error and exits.
- Namespace.Room: growth past 2^30 slots is reported as `ResourceExhausted`, because `next_pow2` overflows a C `int` there.
- Pow2.NextPow2: the integer version used by the create operations is not proved equal to the bit-level Pow2.NextPow2Bits. Both are proved to return the least power of two ≥ x, so they agree on every argument, but that agreement is shown through the two contracts, not through a bit-vector-to-integer proof.
- Integer widths are not modelled. `ID_COUNTER` is a `size_t` and ids are C `int`s, so `id + 1` and `ID_COUNTER++` can wrap. The model's counter and ids are unbounded integers.
- Ids.CreateKeepsFresh, Ids.LoadFreshThenCreate: each states freshness for a create in the node handed to it, the root of the tree it sees. Ids.CreateAtKeepsFresh and Ids.LoadFreshThenCreateAt state it for a create at any node of a larger tree.
- Release.Release: the model records the order in which nodes are released. The three separate `free` calls per node (name, slot array, inode) are not modelled.
- `strcmp` is modelled as equality of names. Reads past an unterminated name (a record whose declared length holds no zero byte) are not modelled.

## Findings

| source | as written | input that shows it | evidently intended | confidence | as-written member | corrected member |
|---|---|---|---|---|---|---|
| main.c:131-138 | `create_file` stores the new id, name, kind and flags into `dir` and appends a blank inode with id -1 and no name | any writable directory, e.g. `create_file(root, "a", false)` on the root "/" | the new inode gets the attributes, as `create_dir` does at main.c:107-114 | high; not executed | Namespace.CreateFileAsWrittenLosesFile | Namespace.CreateFile |
| main.c:52 | the loader sets the id counter to the id of each record read + 1, so it ends at the last record's id + 1 | the table of "/" with id 2 holding one File "a" with id 1; after loading, `create_dir` at the root gives the new entry id 2 again | the counter ends past the largest id loaded, so new ids are fresh | medium; not executed | Ids.LastIdCounterCollides | Ids.LoadFresh |

=== FILE: bytes.dfy ===
/** Bytes and the 32-bit integers of the table format. The source copies each
    integer field with `memcpy` into a C `int`, so on the little-endian 64-bit
    hosts it targets a field is a little-endian two's-complement int32. */
module Bytes {

  /** A table byte. It is an integer newtype rather than `bv8` because every
      use is arithmetic (little-endian sums, two's-complement wrap-around,
      comparison with zero), which the solver handles on integers without
      bit-vector conversions; the values are the same 0..255. */
  newtype byte = x: int | 0 <= x < 0x100

  const Int32Min: int := -0x8000_0000
  const Int32Max: int := 0x7FFF_FFFF

  predicate IsInt32(x: int) {
    Int32Min <= x <= Int32Max
  }

  /** The unsigned little-endian value of the four bytes at `pos`. */
  function U32At(buf: seq<byte>, pos: nat): (u: int)
    requires pos + 4 <= |buf|
    ensures 0 <= u < 0x1_0000_0000
  {
    buf[pos] as int
    + 0x100 * buf[pos + 1] as int
    + 0x1_0000 * buf[pos + 2] as int
    + 0x100_0000 * buf[pos + 3] as int
  }

  /** The signed int32 stored at `pos`. */
  function I32At(buf: seq<byte>, pos: nat): int
    requires pos + 4 <= |buf|
  {
    var u := U32At(buf, pos);
    if u < 0x8000_0000 then u else u - 0x1_0000_0000
  }

  /** The two's-complement bit pattern of the int32 `x`, as an unsigned value. */
  function Unsigned(x: int): (u: int)
    requires IsInt32(x)
    ensures 0 <= u < 0x1_0000_0000
  {
    if x < 0 then x + 0x1_0000_0000 else x
  }

  /** The four bytes that store the int32 `x`, least significant first. */
  function I32Bytes(x: int): (b: seq<byte>)
    requires IsInt32(x)
    ensures |b| == 4
  {
    var u := Unsigned(x);
    var q1 := u / 0x100;
    var q2 := q1 / 0x100;
    [(u % 0x100) as byte, (q1 % 0x100) as byte, (q2 % 0x100) as byte, (q2 / 0x100) as byte]
  }

  /** Splitting off the low byte of a value. */
  lemma DivMod256(u: int, lo: int, hi: int)
    requires 0 <= lo < 0x100 && 0 <= hi && u == lo + 0x100 * hi
    ensures u % 0x100 == lo && u / 0x100 == hi
  {
  }

  /** The base-256 digits of a value below 2^32, as I32Bytes takes them. */
  lemma Digits(u: int, b0: int, b1: int, b2: int, b3: int)
    requires 0 <= b0 < 0x100 && 0 <= b1 < 0x100 && 0 <= b2 < 0x100 && 0 <= b3 < 0x100
    requires u == b0 + 0x100 * b1 + 0x1_0000 * b2 + 0x100_0000 * b3
    ensures u % 0x100 == b0 && u / 0x100 % 0x100 == b1
    ensures u / 0x100 / 0x100 % 0x100 == b2 && u / 0x100 / 0x100 / 0x100 == b3
  {
    DivMod256(u, b0, b1 + 0x100 * b2 + 0x1_0000 * b3);
    DivMod256(u / 0x100, b1, b2 + 0x100 * b3);
    DivMod256(u / 0x100 / 0x100, b2, b3);
  }

  /** A value below 2^32 is the sum of its base-256 digits. */
  lemma Undigits(u: int)
    requires 0 <= u < 0x1_0000_0000
    ensures var q1 := u / 0x100; var q2 := q1 / 0x100;
            && 0 <= q2 / 0x100 < 0x100
            && u == u % 0x100 + 0x100 * (q1 % 0x100) + 0x1_0000 * (q2 % 0x100) + 0x100_0000 * (q2 / 0x100)
  {
    var q1 := u / 0x100;
    var q2 := q1 / 0x100;
    assert u == u % 0x100 + 0x100 * q1;
    assert q1 == q1 % 0x100 + 0x100 * q2;
    assert q2 == q2 % 0x100 + 0x100 * (q2 / 0x100);
  }

  /** Every four bytes read as an int32 in range, and writing that value back
      gives the same four bytes: the field encoding is a bijection. */
  lemma I32AtInRange(buf: seq<byte>, pos: nat)
    requires pos + 4 <= |buf|
    ensures IsInt32(I32At(buf, pos))
    ensures I32Bytes(I32At(buf, pos)) == buf[pos..pos + 4]
  {
    var u := U32At(buf, pos);
    assert Unsigned(I32At(buf, pos)) == u;
    Digits(u, buf[pos] as int, buf[pos + 1] as int, buf[pos + 2] as int, buf[pos + 3] as int);
  }

  /** Reading back the bytes written for `x` gives `x`. */
  lemma I32RoundTrip(x: int, buf: seq<byte>, pos: nat)
    requires IsInt32(x)
    requires pos + 4 <= |buf| && buf[pos..pos + 4] == I32Bytes(x)
    ensures I32At(buf, pos) == x
  {
    var b := I32Bytes(x);
    assert buf[pos] == b[0] && buf[pos + 1] == b[1] && buf[pos + 2] == b[2] && buf[pos + 3] == b[3];
    Undigits(Unsigned(x));
    assert U32At(buf, pos) == Unsigned(x);
  }
}

=== FILE: encoder.dfy ===
/** The writer of the table format, the inverse of the decoder: it lays a
    tree out as the decoder expects to read it, with zero placeholder slots.
    The round-trip theorem below is stated against it. */
module Encoder {
  import opened Results
  import opened Bytes
  import opened Inode
  import opened Table

  function Flag(b: bool): byte {
    if b then 1 else 0
  }

  function Zeros(k: nat): (z: seq<byte>)
    ensures |z| == k
  {
    seq(k, _ => 0)
  }

  /** The trees that have a table encoding the decoder reproduces exactly:
      every field fits its int32, names are C strings, a directory has as
      many slots as children (as every decoded directory does) and a File
      has no children. */
  predicate Encodable(n: Node) {
    && IsInt32(n.id) && IsInt32(n.size)
    && NoZero(n.name) && |n.name| + 1 <= Int32Max
    && 0 <= n.capacity <= Int32Max
    && (n.isDir ==> n.capacity == |n.children|)
    && (!n.isDir ==> n.children == [])
    && forall i :: 0 <= i < |n.children| ==> Encodable(n.children[i])
  }

  /** The bytes of a record before its children. */
  function Header(n: Node): (h: seq<byte>)
    requires Encodable(n)
    ensures |h| == HeaderSize(|n.name| + 1, n.capacity)
  {
    I32Bytes(n.id) + I32Bytes(|n.name| + 1) + n.name + [0]
    + [Flag(n.isDir), Flag(n.readonly)]
    + I32Bytes(n.size) + I32Bytes(n.capacity)
    + Zeros(PointerWidth * n.capacity)
  }

  function Encode(n: Node): seq<byte>
    requires Encodable(n)
    decreases n
  {
    Header(n) + EncodeAll(n.children)
  }

  function EncodeAll(cs: seq<Node>): seq<byte>
    requires forall i :: 0 <= i < |cs| ==> Encodable(cs[i])
    decreases cs
  {
    if |cs| == 0 then [] else Encode(cs[0]) + EncodeAll(cs[1..])
  }

  /** Byte `i` of a buffer that agrees with a prefix of `s`. */
  lemma Window(buf: seq<byte>, pos: nat, s: seq<byte>, k: nat, i: nat)
    requires pos + k <= |buf| && k <= |s| && buf[pos..pos + k] == s[..k]
    requires i < k
    ensures buf[pos + i] == s[i]
  {
    assert buf[pos..pos + k][i] == s[..k][i];
  }

  /** An int32 field at offset `a` of a buffer that agrees with a prefix of `s`. */
  lemma Int32Window(buf: seq<byte>, pos: nat, s: seq<byte>, k: nat, a: nat, x: int)
    requires pos + k <= |buf| && k <= |s| && buf[pos..pos + k] == s[..k]
    requires a + 4 <= k && IsInt32(x) && s[a..a + 4] == I32Bytes(x)
    ensures I32At(buf, pos + a) == x
  {
    Window(buf, pos, s, k, a);
    Window(buf, pos, s, k, a + 1);
    Window(buf, pos, s, k, a + 2);
    Window(buf, pos, s, k, a + 3);
    var w := buf[pos + a..pos + a + 4];
    assert w[0] == s[a] && w[1] == s[a + 1] && w[2] == s[a + 2] && w[3] == s[a + 3];
    assert w == s[a..a + 4];
    I32RoundTrip(x, buf, pos + a);
  }

  /** The header laid out field by field, with the offset of each field. */
  lemma HeaderLayout(n: Node)
    requires Encodable(n)
    ensures var h := Header(n); var q := 9 + |n.name|;
            && h[0..4] == I32Bytes(n.id)
            && h[4..8] == I32Bytes(|n.name| + 1)
            && h[8..q] == n.name + [0]
            && h[q] == Flag(n.isDir) && h[q + 1] == Flag(n.readonly)
            && h[q + 2..q + 6] == I32Bytes(n.size)
            && h[q + 6..q + 10] == I32Bytes(n.capacity)
  {
    var q := 9 + |n.name|;
    var a := I32Bytes(n.id) + I32Bytes(|n.name| + 1);
    var b := a + n.name + [0];
    var c := b + [Flag(n.isDir), Flag(n.readonly)];
    var d := c + I32Bytes(n.size);
    var e := d + I32Bytes(n.capacity);
    assert Header(n) == e + Zeros(PointerWidth * n.capacity);
    assert e[q + 6..q + 10] == I32Bytes(n.capacity);
    assert d[q + 2..q + 6] == I32Bytes(n.size);
    assert c[q] == Flag(n.isDir) && c[q + 1] == Flag(n.readonly);
    assert b[8..q] == n.name + [0];
    assert a[4..8] == I32Bytes(|n.name| + 1);
    assert a[0..4] == I32Bytes(n.id);
  }

  /** The fields the decoder reads from a buffer that holds the first `k`
      bytes of a header, for every field that ends within those `k` bytes. */
  lemma HeaderFields(n: Node, buf: seq<byte>, pos: nat, k: nat)
    requires Encodable(n)
    requires k <= |Header(n)| && pos + k <= |buf| && buf[pos..pos + k] == Header(n)[..k]
    ensures k >= 4 ==> I32At(buf, pos) == n.id
    ensures k >= 8 ==> I32At(buf, pos + 4) == |n.name| + 1
    ensures k >= 9 + |n.name| ==> buf[pos + 8..pos + 9 + |n.name|] == n.name + [0]
    ensures k >= 19 + |n.name| ==>
              var p := pos + 9 + |n.name|;
              && buf[p] == Flag(n.isDir) && buf[p + 1] == Flag(n.readonly)
              && I32At(buf, p + 2) == n.size && I32At(buf, p + 6) == n.capacity
  {
    HeaderLayout(n);
    if k >= 4 {
      Int32Window(buf, pos, Header(n), k, 0, n.id);
    }
    if k >= 8 {
      Int32Window(buf, pos, Header(n), k, 4, |n.name| + 1);
    }
    if k >= 9 + |n.name| {
      NameWindow(n, buf, pos, k);
    }
    if k >= 19 + |n.name| {
      FlagWindows(n, buf, pos, k);
    }
  }

  lemma NameWindow(n: Node, buf: seq<byte>, pos: nat, k: nat)
    requires Encodable(n)
    requires k <= |Header(n)| && pos + k <= |buf| && buf[pos..pos + k] == Header(n)[..k]
    requires k >= 9 + |n.name|
    ensures buf[pos + 8..pos + 9 + |n.name|] == n.name + [0]
  {
    var h := Header(n);
    var q := 9 + |n.name|;
    HeaderLayout(n);
    forall i | 8 <= i < q
      ensures buf[pos + i] == h[i]
    {
      Window(buf, pos, h, k, i);
    }
    assert buf[pos + 8..pos + q] == h[8..q];
  }

  lemma FlagWindows(n: Node, buf: seq<byte>, pos: nat, k: nat)
    requires Encodable(n)
    requires k <= |Header(n)| && pos + k <= |buf| && buf[pos..pos + k] == Header(n)[..k]
    requires k >= 19 + |n.name|
    ensures var p := pos + 9 + |n.name|;
            && buf[p] == Flag(n.isDir) && buf[p + 1] == Flag(n.readonly)
            && I32At(buf, p + 2) == n.size && I32At(buf, p + 6) == n.capacity
  {
    var h := Header(n);
    var q := 9 + |n.name|;
    HeaderLayout(n);
    Window(buf, pos, h, k, q);
    Window(buf, pos, h, k, q + 1);
    Int32Window(buf, pos, h, k, q + 2, n.size);
    Int32Window(buf, pos, h, k, q + 6, n.capacity);
  }

  /** A terminated C string reads back as itself. */
  lemma {:induction false} NameFromTerminated(name: Name)
    requires NoZero(name)
    ensures NameFrom(name + [0]) == name
  {
    if |name| > 0 {
      assert (name + [0])[1..] == name[1..] + [0];
      NameFromTerminated(name[1..]);
    }
  }

  /** The buffer holds the bytes `e` from `pos` on. */
  predicate At(buf: seq<byte>, pos: nat, e: seq<byte>)
    decreases |e|
  {
    pos + |e| <= |buf| && (|e| == 0 || (buf[pos] == e[0] && At(buf, pos + 1, e[1..])))
  }

  lemma {:induction false} AtSlice(buf: seq<byte>, pos: nat, e: seq<byte>)
    ensures At(buf, pos, e) <==> pos + |e| <= |buf| && buf[pos..pos + |e|] == e
    decreases |e|
  {
    if |e| > 0 && pos + |e| <= |buf| {
      AtSlice(buf, pos + 1, e[1..]);
      assert buf[pos..pos + |e|] == [buf[pos]] + buf[pos + 1..pos + |e|];
      assert e == [e[0]] + e[1..];
    }
  }

  lemma {:induction false} AtConcat(buf: seq<byte>, pos: nat, a: seq<byte>, b: seq<byte>)
    requires At(buf, pos, a + b)
    ensures At(buf, pos, a) && At(buf, pos + |a|, b)
    decreases |a|
  {
    if |a| == 0 {
      assert a + b == b;
    } else {
      assert (a + b)[1..] == a[1..] + b;
      AtConcat(buf, pos + 1, a[1..], b);
    }
  }

  /** A node's encoding is its header followed by its children's. */
  lemma SplitNode(n: Node, buf: seq<byte>, pos: nat)
    requires Encodable(n)
    requires At(buf, pos, Encode(n))
    ensures At(buf, pos, Header(n)) && At(buf, pos + |Header(n)|, EncodeAll(n.children))
    ensures |Encode(n)| == |Header(n)| + |EncodeAll(n.children)|
    ensures !n.isDir ==> |Encode(n)| == |Header(n)|
  {
    AtConcat(buf, pos, Header(n), EncodeAll(n.children));
  }

  /** A run's encoding is its first sibling's followed by the rest's. */
  lemma SplitAll(cs: seq<Node>, buf: seq<byte>, pos: nat)
    requires |cs| > 0 && forall i :: 0 <= i < |cs| ==> Encodable(cs[i])
    requires At(buf, pos, EncodeAll(cs))
    ensures At(buf, pos, Encode(cs[0])) && At(buf, pos + |Encode(cs[0])|, EncodeAll(cs[1..]))
    ensures |EncodeAll(cs)| == |Encode(cs[0])| + |EncodeAll(cs[1..])|
  {
    AtConcat(buf, pos, Encode(cs[0]), EncodeAll(cs[1..]));
  }

  /** The fields of `n`, in the table layout, at `pos`. */
  predicate FieldsAt(buf: seq<byte>, pos: nat, n: Node) {
    var p := pos + 9 + |n.name|;
    && 0 <= n.capacity && NoZero(n.name)
    && pos + HeaderSize(|n.name| + 1, n.capacity) <= |buf|
    && I32At(buf, pos) == n.id && I32At(buf, pos + 4) == |n.name| + 1
    && buf[pos + 8..p] == n.name + [0]
    && buf[p] == Flag(n.isDir) && buf[p + 1] == Flag(n.readonly)
    && I32At(buf, p + 2) == n.size && I32At(buf, p + 6) == n.capacity
  }

  /** An encoded header holds the node's fields. */
  lemma EncodedFields(n: Node, buf: seq<byte>, pos: nat)
    requires Encodable(n)
    requires At(buf, pos, Header(n))
    ensures FieldsAt(buf, pos, n)
  {
    AtSlice(buf, pos, Header(n));
    assert Header(n)[..|Header(n)|] == Header(n);
    HeaderFields(n, buf, pos, |Header(n)|);
  }

  /** The record reader returns exactly the fields it finds. */
  lemma ReadFields(n: Node, buf: seq<byte>, pos: nat)
    requires FieldsAt(buf, pos, n)
    ensures RecordReads(buf, pos, Record(n.(children := []), pos + HeaderSize(|n.name| + 1, n.capacity)))
  {
    NameFromTerminated(n.name);
  }

  /** The fields of an encoded header read back as the node's own. */
  lemma ReadEncodedRecord(n: Node, buf: seq<byte>, pos: nat)
    requires Encodable(n)
    requires At(buf, pos, Header(n))
    ensures RecordReads(buf, pos, Record(n.(children := []), pos + |Header(n)|))
  {
    EncodedFields(n, buf, pos);
    ReadFields(n, buf, pos);
  }

  /** The record at `pos` reads as `r`. */
  predicate RecordReads(buf: seq<byte>, pos: nat, r: Record) {
    pos <= |buf| && ReadRecord(buf, pos) == Ok(r)
  }

  /** The subtree at `pos` decodes as `d`. */
  predicate DecodesTo(buf: seq<byte>, pos: nat, d: Decoded) {
    pos <= |buf| && Decode(buf, pos) == Ok(d)
  }

  /** The `k` sibling subtrees at `pos` decode as `ds`. */
  predicate ChildrenDecodeTo(buf: seq<byte>, pos: nat, k: nat, counter: int, ds: DecodedSeq) {
    pos <= |buf| && DecodeChildren(buf, pos, k, counter) == Ok(ds)
  }

  /** Decoding a File record whose fields read back as `n`. The header
      length `h` and the end cursor `e` (in DecodeDir also `e'`, the same
      cursor written the caller's second way) are parameters rather than
      expressions so that each caller's own terms appear in the decoding
      predicates unchanged; the record reader's contract already fixes `h`
      to the header length the record declares. */
  lemma DecodeFile(n: Node, buf: seq<byte>, pos: nat, h: nat, e: nat)
    requires !n.isDir && n.children == [] && e == pos + h
    requires RecordReads(buf, pos, Record(n.(children := []), pos + h))
    ensures DecodesTo(buf, pos, Decoded(n, e, LastDecoded(n).id + 1))
  {
  }

  /** Decoding a directory record whose fields and children read back as `n`;
      the parameters are as for DecodeFile. */
  lemma DecodeDir(n: Node, buf: seq<byte>, pos: nat, h: nat, e: nat, e': nat)
    requires n.isDir && n.capacity == |n.children| && e == e'
    requires RecordReads(buf, pos, Record(n.(children := []), pos + h))
    requires ChildrenDecodeTo(buf, pos + h, |n.children|, n.id + 1,
                              DecodedSeq(n.children, e', CounterAfter(n.children, n.id + 1)))
    ensures DecodesTo(buf, pos, Decoded(n, e, LastDecoded(n).id + 1))
  {
  }

  /** One step of DecodeChildren: the first sibling, then the rest. */
  lemma DecodeChildrenCons(cs: seq<Node>, buf: seq<byte>, pos: nat, counter: int,
                           p1: nat, e: nat, e': nat)
    requires |cs| > 0 && e == e'
    requires DecodesTo(buf, pos, Decoded(cs[0], p1, LastDecoded(cs[0]).id + 1))
    requires ChildrenDecodeTo(buf, p1, |cs[1..]|, LastDecoded(cs[0]).id + 1,
                              DecodedSeq(cs[1..], e', CounterAfter(cs[1..], LastDecoded(cs[0]).id + 1)))
    ensures ChildrenDecodeTo(buf, pos, |cs|, counter, DecodedSeq(cs, e, CounterAfter(cs, counter)))
  {
    assert [cs[0]] + cs[1..] == cs;
    if |cs| > 1 {
      assert cs[1..][|cs| - 2] == cs[|cs| - 1];
    }
  }

  /** The number of table bytes of a tree. */
  function Size(n: Node): int
    decreases n
  {
    HeaderSize(|n.name| + 1, n.capacity) + SizeAll(n.children)
  }

  function SizeAll(cs: seq<Node>): int
    decreases cs
  {
    if |cs| == 0 then 0 else Size(cs[0]) + SizeAll(cs[1..])
  }

  /** The records of the tree `n` sit in the buffer from `pos` on, in table
      order, each readable by the record reader: the layout the encoder
      produces, described without its bytes. */
  predicate Laid(buf: seq<byte>, pos: nat, n: Node)
    decreases n
  {
    && 0 <= n.capacity
    && RecordReads(buf, pos, Record(n.(children := []), pos + HeaderSize(|n.name| + 1, n.capacity)))
    && (n.isDir ==> n.capacity == |n.children| && LaidAll(buf, pos + HeaderSize(|n.name| + 1, n.capacity), n.children))
    && (!n.isDir ==> n.children == [])
  }

  predicate LaidAll(buf: seq<byte>, pos: nat, cs: seq<Node>)
    decreases cs
  {
    && pos <= |buf|
    && (|cs| == 0
    || (&& Laid(buf, pos, cs[0])
        && 0 <= pos + Size(cs[0]) <= |buf|
        && LaidAll(buf, pos + Size(cs[0]), cs[1..])))
  }

  /** Decoding laid-out records reproduces the tree. */
  lemma {:induction false} DecodeLaid(buf: seq<byte>, pos: nat, n: Node)
    requires Laid(buf, pos, n)
    ensures 0 <= pos + Size(n) <= |buf|
    ensures DecodesTo(buf, pos, Decoded(n, pos + Size(n), LastDecoded(n).id + 1))
    decreases n
  {
    var h := HeaderSize(|n.name| + 1, n.capacity);
    if !n.isDir {
      assert Size(n) == h;
      DecodeFile(n, buf, pos, h, pos + Size(n));
    } else {
      DecodeLaidAll(buf, pos + h, n.children, n.id + 1);
      DecodeDir(n, buf, pos, h, pos + Size(n), pos + h + SizeAll(n.children));
    }
  }

  lemma {:induction false} DecodeLaidAll(buf: seq<byte>, pos: nat, cs: seq<Node>, counter: int)
    requires LaidAll(buf, pos, cs)
    ensures 0 <= pos + SizeAll(cs) <= |buf|
    ensures ChildrenDecodeTo(buf, pos, |cs|, counter,
                             DecodedSeq(cs, pos + SizeAll(cs), CounterAfter(cs, counter)))
    decreases cs
  {
    if |cs| > 0 {
      var p1 := pos + Size(cs[0]);
      DecodeLaid(buf, pos, cs[0]);
      DecodeLaidAll(buf, p1, cs[1..], LastDecoded(cs[0]).id + 1);
      DecodeChildrenCons(cs, buf, pos, counter, p1, pos + SizeAll(cs), p1 + SizeAll(cs[1..]));
    }
  }

  /** The encoding of a tree is laid out as the decoder reads it. */
  lemma {:induction false} EncodeLaid(n: Node, buf: seq<byte>, pos: nat)
    requires Encodable(n)
    requires At(buf, pos, Encode(n))
    ensures Laid(buf, pos, n) && |Encode(n)| == Size(n)
    decreases n
  {
    SplitNode(n, buf, pos);
    ReadEncodedRecord(n, buf, pos);
    EncodeLaidAll(n.children, buf, pos + |Header(n)|);
  }

  lemma {:induction false} EncodeLaidAll(cs: seq<Node>, buf: seq<byte>, pos: nat)
    requires forall i :: 0 <= i < |cs| ==> Encodable(cs[i])
    requires At(buf, pos, EncodeAll(cs))
    ensures LaidAll(buf, pos, cs) && |EncodeAll(cs)| == SizeAll(cs)
    decreases cs
  {
    if |cs| > 0 {
      SplitAll(cs, buf, pos);
      EncodeLaid(cs[0], buf, pos);
      EncodeLaidAll(cs[1..], buf, pos + |Encode(cs[0])|);
    }
  }

  /** Decoding the encoding of a tree, wherever it sits in a buffer,
      reproduces the tree, moves the cursor exactly past its bytes, and leaves
      the counter one past the id of the last record in pre-order. */
  lemma DecodeEncode(n: Node, buf: seq<byte>, pos: nat)
    requires Encodable(n)
    requires At(buf, pos, Encode(n))
    ensures pos + |Encode(n)| <= |buf|
    ensures DecodesTo(buf, pos, Decoded(n, pos + |Encode(n)|, LastDecoded(n).id + 1))
  {
    EncodeLaid(n, buf, pos);
    DecodeLaid(buf, pos, n);
  }

  /** The table written for an encodable tree loads back as that tree. */
  lemma TableRoundTrip(n: Node, table: seq<byte>)
    requires Encodable(n) && table == Encode(n)
    ensures LoadTable(table) == Ok(Decoded(n, |table|, LastDecoded(n).id + 1))
  {
    EncodedDecodes(n, table);
    LoadDecoded(table, Decoded(n, |table|, LastDecoded(n).id + 1));
  }

  lemma EncodedDecodes(n: Node, table: seq<byte>)
    requires Encodable(n) && table == Encode(n)
    ensures DecodesTo(table, 0, Decoded(n, |table|, LastDecoded(n).id + 1))
  {
    AtWhole(table);
    DecodeEncode(n, table, 0);
  }

  lemma AtWhole(buf: seq<byte>)
    ensures At(buf, 0, buf)
  {
    AtSlice(buf, 0, buf);
    assert buf[0..|buf|] == buf;
  }

  lemma LoadDecoded(buf: seq<byte>, d: Decoded)
    requires DecodesTo(buf, 0, d)
    ensures LoadTable(buf) == Ok(d)
  {
  }

  /** Every strict prefix of a written table fails to load as truncated. */
  lemma TruncatedEncoding(n: Node, table: seq<byte>, k: nat)
    requires Encodable(n) && table == Encode(n) && k < |table|
    ensures LoadTable(table[..k]) == Err(TruncatedInput)
  {
    TableRoundTrip(n, table);
    TruncatedTable(table, k);
  }
}

=== FILE: ids.dfy ===
/** Entry ids. Every entry of a tree should carry an id no other entry
    carries, and the next-id counter should stay above every id in use. The
    source seeds the counter from the last record of the table, which keeps
    it above every id only when that record carries the largest id; the
    corrected loader seeds it from the largest id. */
module Ids {
  import opened Results
  import opened Bytes
  import opened Inode
  import opened Table
  import opened Encoder
  import opened Namespace

  /** The ids of a tree in pre-order, descending only into directories. */
  function Ids(n: Node): seq<int>
    decreases n, 1
  {
    [n.id] + (if n.isDir then IdsAll(n.children) else [])
  }

  function IdsAll(cs: seq<Node>): seq<int>
    decreases cs, 0
  {
    if |cs| == 0 then [] else IdsAll(cs[..|cs| - 1]) + Ids(cs[|cs| - 1])
  }

  predicate Unique(s: seq<int>) {
    forall a, b :: 0 <= a < b < |s| ==> s[a] != s[b]
  }

  predicate Below(s: seq<int>, bound: int) {
    forall k :: 0 <= k < |s| ==> s[k] < bound
  }

  /** The ids of a tree are distinct and all below the counter. */
  predicate FreshCounter(n: Node, counter: int) {
    Unique(Ids(n)) && Below(Ids(n), counter)
  }

  function SeqMax(s: seq<int>): (m: int)
    requires |s| > 0
    ensures m in s
    ensures forall k :: 0 <= k < |s| ==> s[k] <= m
  {
    if |s| == 1 then s[0]
    else
      var m := SeqMax(s[1..]);
      assert forall k :: 1 <= k < |s| ==> s[k] == s[1..][k - 1];
      if s[0] >= m then s[0] else m
  }

  /** The largest id of a tree. */
  function MaxId(n: Node): (m: int)
    ensures m in Ids(n) && Below(Ids(n), m + 1)
  {
    SeqMax(Ids(n))
  }

  /** An insertion into a writable directory adds exactly the counter's
      value to the ids of the tree, after all the others. */
  lemma CreateIds(dir: Node, name: Name, isDir: bool, readonly: bool, counter: int)
    requires NoZero(name) && |dir.children| <= dir.capacity
    requires Create(dir, name, isDir, readonly, counter).Ok? && !dir.readonly
    ensures Ids(Create(dir, name, isDir, readonly, counter).value.dir) == Ids(dir) + [counter]
  {
    var d := Create(dir, name, isDir, readonly, counter).value.dir;
    var entry := NewEntry(counter, name, isDir, readonly);
    assert d.children[..|d.children| - 1] == dir.children;
    assert Ids(entry) == [counter];
  }

  /** Insertion keeps ids unique and below the counter when they were
      before: the new id is the counter's old value. */
  lemma CreateKeepsFresh(dir: Node, name: Name, isDir: bool, readonly: bool, counter: int)
    requires NoZero(name) && |dir.children| <= dir.capacity
    requires Create(dir, name, isDir, readonly, counter).Ok?
    requires FreshCounter(dir, counter)
    ensures var c := Create(dir, name, isDir, readonly, counter).value;
            FreshCounter(c.dir, c.counter)
  {
    if !dir.readonly {
      CreateIds(dir, name, isDir, readonly, counter);
      var s := Ids(dir) + [counter];
      assert forall k :: 0 <= k < |Ids(dir)| ==> s[k] == Ids(dir)[k];
    }
  }

  /** Replacing one child replaces its ids and keeps every other id. */
  lemma {:induction false} IdsAllUpdate(cs: seq<Node>, i: nat, c: Node)
    requires i < |cs|
    ensures multiset(IdsAll(cs[i := c])) + multiset(Ids(cs[i])) == multiset(IdsAll(cs)) + multiset(Ids(c))
    decreases |cs|
  {
    var n := |cs| - 1;
    var cs' := cs[i := c];
    var a, a' := multiset(IdsAll(cs[..n])), multiset(IdsAll(cs'[..n]));
    var x, y := multiset(Ids(cs[i])), multiset(Ids(c));
    assert multiset(IdsAll(cs)) == a + multiset(Ids(cs[n]));
    assert multiset(IdsAll(cs')) == a' + multiset(Ids(cs'[n]));
    if i == n {
      assert cs'[..n] == cs[..n];
      SwapSum(a, x, y);
    } else {
      assert cs'[..n] == cs[..n][i := c];
      IdsAllUpdate(cs[..n], i, c);
      ShiftSum(a', a, x, y, multiset(Ids(cs[n])));
    }
  }

  lemma SwapSum(a: multiset<int>, x: multiset<int>, y: multiset<int>)
    ensures (a + y) + x == (a + x) + y
  {
    forall v
      ensures ((a + y) + x)[v] == ((a + x) + y)[v]
    {
    }
  }

  lemma ShiftSum(a: multiset<int>, b: multiset<int>, x: multiset<int>, y: multiset<int>, z: multiset<int>)
    requires a + x == b + y
    ensures (a + z) + x == (b + z) + y
  {
    forall v
      ensures ((a + z) + x)[v] == ((b + z) + y)[v]
    {
      assert (a + x)[v] == (b + y)[v];
    }
  }

  /** Distinct elements occur once each. */
  lemma {:induction false} UniqueOnce(s: seq<int>)
    requires Unique(s)
    ensures forall x :: multiset(s)[x] <= 1
    decreases |s|
  {
    if |s| > 0 {
      var init := s[..|s| - 1];
      assert s == init + [s[|s| - 1]];
      UniqueOnce(init);
      assert s[|s| - 1] !in init;
    }
  }

  /** An element at two indices occurs at least twice. */
  lemma TwiceCounted(s: seq<int>, a: nat, b: nat)
    requires a < b < |s| && s[a] == s[b]
    ensures multiset(s)[s[a]] >= 2
  {
    assert s == s[..b] + [s[b]] + s[b + 1..];
    assert s[..b][a] == s[a];
  }

  /** Elements that occur once each are distinct. */
  lemma OnceUnique(s: seq<int>)
    requires forall x :: multiset(s)[x] <= 1
    ensures Unique(s)
  {
    forall a: nat, b: nat | a < b < |s|
      ensures s[a] != s[b]
    {
      if s[a] == s[b] {
        TwiceCounted(s, a, b);
      }
    }
  }

  lemma Cancel(a: multiset<int>, b: multiset<int>, x: multiset<int>, y: multiset<int>, id: int)
    requires a + x == b + y && y == x + multiset{id}
    ensures a == b + multiset{id}
  {
    forall v
      ensures a[v] == (b + multiset{id})[v]
    {
      assert (a + x)[v] == (b + y)[v];
    }
  }

  /** Replacing a child of a directory by one with one more id adds that id
      to the directory's ids. */
  lemma ReplaceChildIds(root: Node, i: nat, c: Node, id: int)
    requires root.isDir && i < |root.children|
    requires multiset(Ids(c)) == multiset(Ids(root.children[i])) + multiset{id}
    ensures multiset(Ids(root.(children := root.children[i := c]))) == multiset(Ids(root)) + multiset{id}
  {
    var root' := root.(children := root.children[i := c]);
    var a, b := multiset(IdsAll(root'.children)), multiset(IdsAll(root.children));
    var x, y := multiset(Ids(root.children[i])), multiset(Ids(c));
    IdsAllUpdate(root.children, i, c);
    Cancel(a, b, x, y, id);
    assert Ids(root') == [root.id] + IdsAll(root'.children);
  }

  /** A create in a writable node anywhere in the tree adds exactly the
      counter's value to the tree's ids. */
  lemma {:induction false} CreateAtIds(root: Node, path: Path, name: Name, isDir: bool, readonly: bool, counter: int)
    requires ValidPath(root, path) && NoZero(name)
    requires |NodeAt(root, path).children| <= NodeAt(root, path).capacity
    requires CreateAt(root, path, name, isDir, readonly, counter).Ok? && !NodeAt(root, path).readonly
    ensures multiset(Ids(CreateAt(root, path, name, isDir, readonly, counter).value.dir))
            == multiset(Ids(root)) + multiset{counter}
    decreases |path|
  {
    if |path| == 0 {
      CreateIds(root, name, isDir, readonly, counter);
    } else {
      var child := root.children[path[0]];
      assert NodeAt(root, path) == NodeAt(child, path[1..]);
      CreateAtIds(child, path[1..], name, isDir, readonly, counter);
      var c := CreateAt(child, path[1..], name, isDir, readonly, counter).value;
      assert CreateAt(root, path, name, isDir, readonly, counter).value.dir
             == root.(children := root.children[path[0] := c.dir]);
      ReplaceChildIds(root, path[0], c.dir, counter);
    }
  }

  /** Ids stay distinct and below the counter through a create at any node
      of the tree, as `create_dir` on a directory `find_dir` returned. */
  lemma CreateAtKeepsFresh(root: Node, path: Path, name: Name, isDir: bool, readonly: bool, counter: int)
    requires ValidPath(root, path) && NoZero(name)
    requires |NodeAt(root, path).children| <= NodeAt(root, path).capacity
    requires CreateAt(root, path, name, isDir, readonly, counter).Ok?
    requires FreshCounter(root, counter)
    ensures var c := CreateAt(root, path, name, isDir, readonly, counter).value;
            FreshCounter(c.dir, c.counter)
  {
    if !NodeAt(root, path).readonly {
      var c := CreateAt(root, path, name, isDir, readonly, counter).value;
      var s, t := Ids(root), Ids(c.dir);
      CreateAtIds(root, path, name, isDir, readonly, counter);
      UniqueOnce(s);
      assert counter !in s;
      OnceUnique(t);
      forall k | 0 <= k < |t|
        ensures t[k] < c.counter
      {
        assert t[k] in multiset(t);
      }
    }
  }

  /** The loader with the counter seeded as evidently intended: one past the
      largest id of the table rather than one past the id of its last record. */
  function LoadFresh(buf: seq<byte>): (r: Result<Decoded>)
    ensures r.Ok? <==> LoadTable(buf).Ok?
    ensures r.Ok? ==> r.value.node == LoadTable(buf).value.node
    ensures r.Ok? ==> WellFormed(r.value.node) && Below(Ids(r.value.node), r.value.counter)
  {
    var d :- LoadTable(buf);
    DecodeShape(buf, 0);
    Ok(d.(counter := MaxId(d.node) + 1))
  }

  /** A table with distinct ids, loaded by LoadFresh, keeps them distinct
      through any insertion at the root. */
  lemma LoadFreshThenCreate(buf: seq<byte>, name: Name, isDir: bool, readonly: bool)
    requires LoadFresh(buf).Ok? && Unique(Ids(LoadFresh(buf).value.node))
    requires NoZero(name)
    ensures var d := LoadFresh(buf).value;
            var r := Create(d.node, name, isDir, readonly, d.counter);
            r.Ok? ==> FreshCounter(r.value.dir, r.value.counter)
  {
    var d := LoadFresh(buf).value;
    if Create(d.node, name, isDir, readonly, d.counter).Ok? {
      CreateKeepsFresh(d.node, name, isDir, readonly, d.counter);
    }
  }

  /** A table with distinct ids, loaded by LoadFresh, keeps them distinct
      through a create at any node of the loaded tree. */
  lemma LoadFreshThenCreateAt(buf: seq<byte>, path: Path, name: Name, isDir: bool, readonly: bool)
    requires LoadFresh(buf).Ok? && Unique(Ids(LoadFresh(buf).value.node))
    requires ValidPath(LoadFresh(buf).value.node, path) && NoZero(name)
    ensures var d := LoadFresh(buf).value;
            && |NodeAt(d.node, path).children| <= NodeAt(d.node, path).capacity
            && var r := CreateAt(d.node, path, name, isDir, readonly, d.counter);
               r.Ok? ==> FreshCounter(r.value.dir, r.value.counter)
  {
    var d := LoadFresh(buf).value;
    WellFormedAt(d.node, path);
    if CreateAt(d.node, path, name, isDir, readonly, d.counter).Ok? {
      CreateAtKeepsFresh(d.node, path, name, isDir, readonly, d.counter);
    }
  }

  /** A directory "/" with id 2 holding one File "a" with id 1: ids that
      are distinct, but whose last record does not carry the largest. */
  function CollidingTree(): Node {
    var file := Node(1, [0x61], false, false, 0, [], 0);
    Node(2, RootName, true, false, 0, [file], 1)
  }

  /** The table written for CollidingTree loads back with the counter at 2,
      one past the id of its last record, which is the root's own id. */
  lemma CollidingTableLoads(table: seq<byte>)
    requires table == Encode(CollidingTree())
    ensures LoadTable(table) == Ok(Decoded(CollidingTree(), |table|, 2))
  {
    var n := CollidingTree();
    assert Encodable(n) by {
      assert Encodable(n.children[0]);
    }
    TableRoundTrip(n, table);
  }

  /** CollidingTree has distinct ids, and a directory created at its root
      with the counter at 2 repeats the root's id. */
  lemma CollidingCreate(name: Name)
    requires NoZero(name)
    ensures Unique(Ids(CollidingTree()))
    ensures CreateDir(CollidingTree(), name, false, 2).Ok?
    ensures !Unique(Ids(CreateDir(CollidingTree(), name, false, 2).value.dir))
  {
    var n := CollidingTree();
    assert Ids(n) == [2, 1] by {
      assert Ids(n.children[0]) == [1];
      assert IdsAll(n.children) == [1] by {
        assert n.children[..0] == [];
      }
    }
    assert Room(1, 1).Ok?;
    CreateIds(n, name, true, false, 2);
    var after := CreateDir(n, name, false, 2).value.dir;
    assert Ids(after)[0] == Ids(after)[2];
  }

  /** As written, loading a table with distinct ids whose last record does
      not carry the largest id and then calling `create_dir` at the root
      gives two entries the same id. */
  lemma LastIdCounterCollides(table: seq<byte>, name: Name)
    requires table == Encode(CollidingTree()) && NoZero(name)
    ensures LoadTable(table).Ok? && LoadTable(table).value.counter == 2
    ensures var root := LoadTable(table).value.node;
            && Unique(Ids(root)) && |root.children| <= root.capacity
            && CreateDir(root, name, false, 2).Ok?
            && !Unique(Ids(CreateDir(root, name, false, 2).value.dir))
  {
    CollidingTableLoads(table);
    CollidingCreate(name);
  }
}

=== FILE: inode.dfy ===
/** The inode record and the tree it forms. */
module Inode {
  import opened Bytes

  /** A name as the bytes of a C string, without its terminator. */
  type Name = seq<byte>

  /** The root's conventional name "/", which print_fs leaves unsuffixed. */
  const RootName: Name := [0x2F]

  predicate NoZero(name: Name) {
    forall i :: 0 <= i < |name| ==> name[i] != 0
  }

  /** One directory or file. `children` owns the entries of a directory in
      insertion order (the source's `entries` array of pointers), so the
      source's `num_entries` of a directory is `|children|`; `capacity` is the
      source's `entries_size`, the number of slots allocated. */
  datatype Node = Node(
    id: int,
    name: Name,
    isDir: bool,
    readonly: bool,
    size: int,
    children: seq<Node>,
    capacity: int)

  /** The blank node `init_inode` allocates: id -1, no name, a writable empty
      File of size 0 with no slots. */
  function InitInode(): (n: Node)
    ensures WellFormed(n) && !n.isDir && Count(n) == 1
  {
    Node(-1, [], false, false, 0, [], 0)
  }

  /** The invariants every tree of the model keeps: names are C strings,
      Files own no children, and no store holds more children than it has
      slots for. */
  predicate WellFormed(n: Node) {
    && NoZero(n.name)
    && (!n.isDir ==> n.children == [])
    && |n.children| <= n.capacity
    && forall i :: 0 <= i < |n.children| ==> WellFormed(n.children[i])
  }

  /** The last node of the tree in pre-order, descending only into
      directories. */
  function LastDecoded(n: Node): Node {
    if n.isDir && |n.children| > 0 then LastDecoded(n.children[|n.children| - 1]) else n
  }

  /** A node of a tree is named by the child indices leading to it from the
      root; the root is the empty path. */
  type Path = seq<nat>

  /** `p` leads to a node, descending only into directories, as every
      traversal of the source does. */
  predicate ValidPath(n: Node, p: Path)
    decreases |p|
  {
    |p| == 0 || (n.isDir && p[0] < |n.children| && ValidPath(n.children[p[0]], p[1..]))
  }

  function NodeAt(n: Node, p: Path): Node
    requires ValidPath(n, p)
    decreases |p|
  {
    if |p| == 0 then n else NodeAt(n.children[p[0]], p[1..])
  }

  /** Every node of a well-formed tree is itself well formed. */
  lemma {:induction false} WellFormedAt(n: Node, p: Path)
    requires WellFormed(n) && ValidPath(n, p)
    ensures WellFormed(NodeAt(n, p))
    decreases |p|
  {
    if |p| > 0 {
      WellFormedAt(n.children[p[0]], p[1..]);
    }
  }

  /** The number of nodes a traversal of the source visits. */
  function Count(n: Node): nat {
    1 + (if n.isDir then CountFrom(n.children, 0) else 0)
  }

  function CountFrom(cs: seq<Node>, i: nat): nat
    decreases cs, |cs| - i
  {
    if i >= |cs| then 0 else Count(cs[i]) + CountFrom(cs, i + 1)
  }
}

=== FILE: namespace.dfy ===
/** The namespace operations on a directory: `create_dir`, `create_file`,
    `find_dir` and `find_file`. The source's global ID_COUNTER is threaded
    through explicitly: every operation that allocates an id takes the
    counter and returns the next one. */
module Namespace {
  import opened Results
  import opened Pow2
  import opened Inode

  /** A directory after an insertion, and the counter after it. */
  datatype Created = Created(dir: Node, counter: int)

  /** The slot count of a store holding `count` children in `capacity`
      slots once it has room for one more: unchanged while a free slot is
      left, otherwise `next_pow2(capacity + 1)`. The source's `next_pow2`
      overflows a C `int` when `capacity + 1` exceeds 2^30, which the model
      reports as ResourceExhausted. */
  function Room(capacity: int, count: nat): (r: Result<int>)
    requires count <= capacity
    ensures r.Ok? ==> count < r.value
    ensures r.Ok? && count < capacity ==> r.value == capacity
    ensures r.Ok? && count == capacity ==>
              IsPow2(r.value) && capacity + 1 <= r.value < 2 * (capacity + 1)
    ensures r.Err? <==> count == capacity && capacity + 1 > MaxArg
    ensures r.Err? ==> r.error == ResourceExhausted
  {
    if count < capacity then Ok(capacity)
    else if capacity + 1 > MaxArg then Err(ResourceExhausted)
    else Ok(NextPow2(capacity + 1))
  }

  /** The new entry: a blank inode with the next id, the given name and
      kind, and size 0. */
  function NewEntry(id: int, name: Name, isDir: bool, readonly: bool): (e: Node)
    ensures e.children == [] && e.capacity == 0 && Count(e) == 1
    ensures NoZero(name) ==> WellFormed(e)
  {
    InitInode().(id := id, name := name, isDir := isDir, readonly := readonly, size := 0)
  }

  /** Inserts an entry named `name` into `dir`, as `create_dir` (`isDir`)
      and, as evidently intended, `create_file` (`!isDir`) do. A read-only
      node is returned unchanged and consumes no id. The source does not
      check that `dir` is a directory; the model reports NotADirectory. */
  function Create(dir: Node, name: Name, isDir: bool, readonly: bool, counter: int): (r: Result<Created>)
    requires NoZero(name) && |dir.children| <= dir.capacity
    ensures dir.readonly ==> r == Ok(Created(dir, counter))
    ensures !dir.readonly && !dir.isDir ==> r == Err(NotADirectory)
    ensures r.Ok? && !dir.readonly ==>
              var d := r.value.dir;
              && r.value.counter == counter + 1
              && d == dir.(children := d.children, capacity := d.capacity)
              && d.children == dir.children + [NewEntry(counter, name, isDir, readonly)]
              && |d.children| <= d.capacity
              && (|dir.children| < dir.capacity ==> d.capacity == dir.capacity)
              && (|dir.children| == dir.capacity ==>
                    dir.capacity + 1 <= MaxArg && d.capacity == NextPow2(dir.capacity + 1))
    ensures r.Err? <==>
              !dir.readonly && (!dir.isDir || (|dir.children| == dir.capacity && dir.capacity + 1 > MaxArg))
    ensures r.Err? ==> r.error == NotADirectory || r.error == ResourceExhausted
  {
    if dir.readonly then Ok(Created(dir, counter))
    else if !dir.isDir then Err(NotADirectory)
    else
      var capacity :- Room(dir.capacity, |dir.children|);
      var entry := NewEntry(counter, name, isDir, readonly);
      Ok(Created(dir.(children := dir.children + [entry], capacity := capacity), counter + 1))
  }

  /** A full store whose slot count is zero or a power of two, as every
      store `create_dir` and `create_file` grow is, goes to one slot from
      none and otherwise doubles. */
  lemma CreateGrows(dir: Node, name: Name, isDir: bool, readonly: bool, counter: int)
    requires NoZero(name) && dir.isDir && !dir.readonly && |dir.children| == dir.capacity
    requires dir.capacity == 0 || (IsPow2(dir.capacity) && dir.capacity + 1 <= MaxArg)
    ensures Create(dir, name, isDir, readonly, counter).Ok?
    ensures Create(dir, name, isDir, readonly, counter).value.dir.capacity
            == if dir.capacity == 0 then 1 else 2 * dir.capacity
  {
    GrowCapacity(dir.capacity);
  }

  function CreateDir(dir: Node, name: Name, readonly: bool, counter: int): (r: Result<Created>)
    requires NoZero(name) && |dir.children| <= dir.capacity
    ensures r.Ok? && !dir.readonly ==>
              && |r.value.dir.children| == |dir.children| + 1
              && r.value.dir.children[|dir.children|] == NewEntry(counter, name, true, readonly)
  {
    Create(dir, name, true, readonly, counter)
  }

  /** `create_file` with its evident intent: the new entry is a File. */
  function CreateFile(dir: Node, name: Name, readonly: bool, counter: int): (r: Result<Created>)
    requires NoZero(name) && |dir.children| <= dir.capacity
    ensures r.Ok? && !dir.readonly ==>
              && |r.value.dir.children| == |dir.children| + 1
              && r.value.dir.children[|dir.children|] == NewEntry(counter, name, false, readonly)
  {
    Create(dir, name, false, readonly, counter)
  }

  /** `create_file` as the source writes it: after growing the store it
      sets the id, name, kind, read-only flag and size on `dir` itself
      instead of on the new inode, and appends that still blank inode. */
  function CreateFileAsWritten(dir: Node, name: Name, readonly: bool, counter: int): (r: Result<Created>)
    requires NoZero(name) && |dir.children| <= dir.capacity
    ensures dir.readonly ==> r == Ok(Created(dir, counter))
    ensures r.Ok? && !dir.readonly ==>
              && r.value.dir.id == counter && r.value.dir.name == name
              && !r.value.dir.isDir && r.value.dir.readonly == readonly
              && r.value.dir.children == dir.children + [InitInode()]
  {
    if dir.readonly then Ok(Created(dir, counter))
    else
      var capacity :- Room(dir.capacity, |dir.children|);
      var clobbered := dir.(id := counter, name := name, isDir := false, readonly := readonly, size := 0);
      Ok(Created(clobbered.(children := dir.children + [InitInode()], capacity := capacity), counter + 1))
  }

  /** The entries `find_dir` (`isDir`) and `find_file` (`!isDir`) accept. */
  predicate Matches(n: Node, name: Name, isDir: bool) {
    n.isDir == isDir && n.name == name
  }

  /** The index of the first entry at or after `i` that matches, scanning
      in insertion order as the source's loop does. */
  function FirstMatch(cs: seq<Node>, name: Name, isDir: bool, i: nat): (r: Option<nat>)
    requires i <= |cs|
    ensures r.Some? ==> i <= r.value < |cs| && Matches(cs[r.value], name, isDir)
    ensures r.Some? ==> forall j :: i <= j < r.value ==> !Matches(cs[j], name, isDir)
    ensures r.None? ==> forall j :: i <= j < |cs| ==> !Matches(cs[j], name, isDir)
    decreases |cs| - i
  {
    if i == |cs| then None
    else if Matches(cs[i], name, isDir) then Some(i)
    else FirstMatch(cs, name, isDir, i + 1)
  }

  /** The lookup shared by `find_dir` and `find_file`: the index of the
      first child of the wanted kind and name, None when there is none. A
      File as the starting node is an error (the source exits). */
  function Find(dir: Node, name: Name, isDir: bool): (r: Result<Option<nat>>)
    ensures r.Err? <==> !dir.isDir
    ensures r.Err? ==> r.error == NotADirectory
    ensures r.Ok? && r.value.Some? ==>
              && r.value.value < |dir.children|
              && Matches(dir.children[r.value.value], name, isDir)
              && forall j :: 0 <= j < r.value.value ==> !Matches(dir.children[j], name, isDir)
    ensures r.Ok? && r.value.None? ==>
              forall j :: 0 <= j < |dir.children| ==> !Matches(dir.children[j], name, isDir)
  {
    if !dir.isDir then Err(NotADirectory) else Ok(FirstMatch(dir.children, name, isDir, 0))
  }

  function FindDir(dir: Node, name: Name): (r: Result<Option<nat>>)
    ensures r.Ok? && r.value.Some? ==>
              r.value.value < |dir.children| && dir.children[r.value.value].isDir
              && dir.children[r.value.value].name == name
  {
    Find(dir, name, true)
  }

  function FindFile(dir: Node, name: Name): (r: Result<Option<nat>>)
    ensures r.Ok? && r.value.Some? ==>
              r.value.value < |dir.children| && !dir.children[r.value.value].isDir
              && dir.children[r.value.value].name == name
  {
    Find(dir, name, false)
  }

  /** Appending an entry does not change an earlier match, and the entry is
      found exactly when nothing before it matches. */
  lemma {:induction false} FirstMatchAppend(cs: seq<Node>, c: Node, name: Name, isDir: bool, i: nat)
    requires i <= |cs|
    ensures FirstMatch(cs + [c], name, isDir, i)
            == if FirstMatch(cs, name, isDir, i).Some? then FirstMatch(cs, name, isDir, i)
               else if Matches(c, name, isDir) then Some(|cs|)
               else None
    decreases |cs| - i
  {
    if i < |cs| {
      assert (cs + [c])[i] == cs[i];
      FirstMatchAppend(cs, c, name, isDir, i + 1);
    }
  }

  /** After an insertion into a writable directory, every lookup answers as
      before, except that a lookup for the new name and kind that found
      nothing now finds the new entry. */
  lemma FindAfterCreate(dir: Node, name: Name, isDir: bool, readonly: bool, counter: int,
                        name': Name, isDir': bool)
    requires NoZero(name) && |dir.children| <= dir.capacity
    requires Create(dir, name, isDir, readonly, counter).Ok? && !dir.readonly
    ensures var d := Create(dir, name, isDir, readonly, counter).value.dir;
            Find(d, name', isDir')
            == if Find(dir, name', isDir').value.Some? then Find(dir, name', isDir')
               else if name' == name && isDir' == isDir then Ok(Some(|dir.children|))
               else Ok(None)
  {
    var d := Create(dir, name, isDir, readonly, counter).value.dir;
    FirstMatchAppend(dir.children, NewEntry(counter, name, isDir, readonly), name', isDir', 0);
  }

  /** A directory created under a name that no directory there had yet is
      found by `find_dir`; the same holds for files and `find_file`. */
  lemma CreateThenFind(dir: Node, name: Name, isDir: bool, readonly: bool, counter: int)
    requires NoZero(name) && |dir.children| <= dir.capacity
    requires Create(dir, name, isDir, readonly, counter).Ok? && !dir.readonly
    requires Find(dir, name, isDir) == Ok(None)
    ensures Find(Create(dir, name, isDir, readonly, counter).value.dir, name, isDir)
            == Ok(Some(|dir.children|))
  {
    FindAfterCreate(dir, name, isDir, readonly, counter, name, isDir);
  }

  /** Insertion keeps a well-formed directory well formed. */
  lemma CreateWellFormed(dir: Node, name: Name, isDir: bool, readonly: bool, counter: int)
    requires NoZero(name) && WellFormed(dir)
    requires Create(dir, name, isDir, readonly, counter).Ok?
    ensures WellFormed(Create(dir, name, isDir, readonly, counter).value.dir)
  {
    var d := Create(dir, name, isDir, readonly, counter).value.dir;
    if !dir.readonly {
      var entry := NewEntry(counter, name, isDir, readonly);
      assert WellFormed(entry);
      forall i | 0 <= i < |d.children|
        ensures WellFormed(d.children[i])
      {
        if i < |dir.children| {
          assert d.children[i] == dir.children[i];
        }
      }
    }
  }

  /** A create in the node that `path` leads to, inside a larger tree. The
      source's `find_dir` hands back a pointer into the tree and
      `create_dir`/`create_file` update that node in place; in the value
      model the updated node replaces the old one along the path, and every
      other node is kept (CreateAtFrame states this for each directory on
      the path). */
  function CreateAt(root: Node, path: Path, name: Name, isDir: bool, readonly: bool, counter: int): (r: Result<Created>)
    requires ValidPath(root, path) && NoZero(name)
    requires |NodeAt(root, path).children| <= NodeAt(root, path).capacity
    ensures NodeAt(root, path).readonly ==> r == Ok(Created(root, counter))
    ensures r.Ok? <==> Create(NodeAt(root, path), name, isDir, readonly, counter).Ok?
    ensures r.Ok? ==>
              && r.value.counter == Create(NodeAt(root, path), name, isDir, readonly, counter).value.counter
              && ValidPath(r.value.dir, path)
              && NodeAt(r.value.dir, path) == Create(NodeAt(root, path), name, isDir, readonly, counter).value.dir
    ensures r.Ok? && |path| > 0 ==>
              && r.value.dir == root.(children := r.value.dir.children)
              && |r.value.dir.children| == |root.children|
              && forall k :: 0 <= k < |root.children| && k != path[0] ==> r.value.dir.children[k] == root.children[k]
    decreases |path|
  {
    if |path| == 0 then Create(root, name, isDir, readonly, counter)
    else
      var c :- CreateAt(root.children[path[0]], path[1..], name, isDir, readonly, counter);
      assert NodeAt(root, path) == NodeAt(root.children[path[0]], path[1..]);
      assert c.dir == root.children[path[0]] ==> root.children[path[0] := c.dir] == root.children;
      Ok(Created(root.(children := root.children[path[0] := c.dir]), c.counter))
  }

  /** A path that leads to a node passes through nodes all along. */
  lemma {:induction false} ValidPrefix(n: Node, p: Path, j: nat)
    requires ValidPath(n, p) && j <= |p|
    ensures ValidPath(n, p[..j])
    decreases |p|
  {
    if j > 0 {
      assert p[..j][1..] == p[1..][..j - 1];
      ValidPrefix(n.children[p[0]], p[1..], j - 1);
    }
  }

  /** Every directory a create at `path` passes through on its way down
      keeps its own fields and all its children but the one the path
      continues into: only the target itself is changed by the insertion. */
  lemma {:induction false} CreateAtFrame(root: Node, path: Path, name: Name, isDir: bool, readonly: bool,
                                         counter: int, j: nat)
    requires ValidPath(root, path) && NoZero(name)
    requires |NodeAt(root, path).children| <= NodeAt(root, path).capacity
    requires CreateAt(root, path, name, isDir, readonly, counter).Ok? && j < |path|
    ensures var after := CreateAt(root, path, name, isDir, readonly, counter).value.dir;
            && ValidPath(root, path[..j]) && ValidPath(after, path[..j])
            && var was, now := NodeAt(root, path[..j]), NodeAt(after, path[..j]);
               && now == was.(children := now.children)
               && |now.children| == |was.children|
               && forall k :: 0 <= k < |was.children| && k != path[j] ==> now.children[k] == was.children[k]
    decreases j
  {
    var after := CreateAt(root, path, name, isDir, readonly, counter).value.dir;
    ValidPrefix(root, path, j);
    ValidPrefix(after, path, j);
    if j > 0 {
      var child := root.children[path[0]];
      assert NodeAt(root, path) == NodeAt(child, path[1..]);
      CreateAtFrame(child, path[1..], name, isDir, readonly, counter, j - 1);
      var c := CreateAt(child, path[1..], name, isDir, readonly, counter).value;
      assert after == root.(children := root.children[path[0] := c.dir]);
      assert path[..j][1..] == path[1..][..j - 1];
      assert NodeAt(root, path[..j]) == NodeAt(child, path[1..][..j - 1]);
      assert NodeAt(after, path[..j]) == NodeAt(c.dir, path[1..][..j - 1]);
    }
  }

  /** The source as written breaks the tree: the directory becomes a File
      that still owns children, and the File the caller asked for is not
      there. The corrected CreateFile keeps the directory and finds the File. */
  lemma CreateFileAsWrittenLosesFile(dir: Node, name: Name, readonly: bool, counter: int)
    requires NoZero(name) && WellFormed(dir) && dir.isDir && !dir.readonly
    requires dir.capacity < MaxArg
    ensures var r := CreateFileAsWritten(dir, name, readonly, counter);
            && r.Ok? && !WellFormed(r.value.dir)
            && Find(r.value.dir, name, false) == Err(NotADirectory)
    ensures var r := CreateFile(dir, name, readonly, counter);
            && r.Ok? && r.value.dir.isDir && WellFormed(r.value.dir)
            && FindFile(r.value.dir, name).Ok? && FindFile(r.value.dir, name).value.Some?
  {
    var r := CreateFile(dir, name, readonly, counter);
    CreateWellFormed(dir, name, false, readonly, counter);
    FindAfterCreate(dir, name, false, readonly, counter, name, false);
  }
}

=== FILE: pow2.dfy ===
/** Capacity growth of a child store: `next_pow2` rounds its argument up to a
    power of two by decrementing, copying the highest set bit into every lower
    position with five or-shift steps, and incrementing again. */
module Pow2 {

  /** The largest argument for which `next_pow2` stays inside a C `int`:
      from 2^30 + 1 on, the final increment overflows. */
  const MaxArg: int := 0x4000_0000

  predicate IsPow2(n: int)
    decreases if n < 1 then 0 else n
  {
    n == 1 || (n > 1 && n % 2 == 0 && IsPow2(n / 2))
  }

  /** The source's bit smearing on the 32-bit word. */
  function Smear(v: bv32): bv32 {
    var a := v | (v >> 1);
    var b := a | (a >> 2);
    var c := b | (b >> 4);
    var d := c | (c >> 8);
    d | (d >> 16)
  }

  /** `next_pow2` bit for bit, on the 32-bit word: the result is a single set
      bit, at least `x`, and below `2 * x`, so it is the least power of two
      that is at least `x`. */
  function NextPow2Bits(x: bv32): (r: bv32)
    requires 1 <= x <= 0x4000_0000
    ensures r != 0 && r & (r - 1) == 0
    ensures x <= r < 2 * x
  {
    Smear(x - 1) + 1
  }

  /** The effect of the five or-shift steps on a non-negative value below
      2^31: every bit below the highest set bit becomes one. The result is one
      less than a power of two, at least `v`, and less than `2 * v`. */
  function FillBelow(v: nat): (r: nat)
    ensures IsPow2(r + 1) && v <= r
    ensures v == 0 || r < 2 * v
  {
    if v == 0 then 0
    else
      var h := FillBelow(v / 2);
      assert (2 * h + 2) / 2 == h + 1;
      2 * h + 1
  }

  /** `next_pow2` on the integers of the model: the least power of two that
      is at least `x` (see NextPow2Least for minimality). */
  function NextPow2(x: int): (r: int)
    requires 1 <= x <= MaxArg
    ensures IsPow2(r) && x <= r < 2 * x
  {
    FillBelow(x - 1) + 1
  }

  /** Of two different powers of two, the larger is at least twice the smaller. */
  lemma {:induction false} Pow2Gap(p: int, q: int)
    requires IsPow2(p) && IsPow2(q) && p < q
    ensures 2 * p <= q
    decreases p
  {
    if p != 1 {
      Pow2Gap(p / 2, q / 2);
    }
  }

  /** No power of two at least `x` is smaller than `NextPow2(x)`. */
  lemma NextPow2Least(x: int, p: int)
    requires 1 <= x <= MaxArg
    requires IsPow2(p) && x <= p
    ensures NextPow2(x) <= p
  {
    var r := NextPow2(x);
    if p < r {
      Pow2Gap(p, r);
    }
  }

  /** A power of two is its own rounding. */
  lemma NextPow2OfPow2(x: int)
    requires 1 <= x <= MaxArg && IsPow2(x)
    ensures NextPow2(x) == x
  {
    NextPow2Least(x, x);
  }

  /** Growing a full store of capacity `s` by one slot: an empty store gets
      one slot, and a store whose capacity is a power of two doubles. */
  lemma GrowCapacity(s: int)
    requires s == 0 || (IsPow2(s) && s + 1 <= MaxArg)
    ensures NextPow2(s + 1) == if s == 0 then 1 else 2 * s
  {
    if s != 0 {
      var r := NextPow2(s + 1);
      assert IsPow2(2 * s) by {
        assert (2 * s) / 2 == s;
      }
      NextPow2Least(s + 1, 2 * s);
      Pow2Gap(s, r);
    }
  }
}

=== FILE: printer.dfy ===
/** `print_fs` and `_print_fs`: the listing of a tree, one line per node.
    The listing is modelled twice: `PrintFs` follows the source's two loops
    line by line, and `PrintOrder` names the node of each line by its path.
    The lemmas connect the two and characterise the order. */
module Printer {
  import opened Bytes
  import opened Inode
  import opened Release

  /** One printed line: the indentation width, the name, and whether a "/"
      follows the name. */
  datatype Line = Line(indent: nat, name: Name, slash: bool)

  /** The bytes of one line: `indent` spaces, "- ", the name, the optional
      "/", and a newline. */
  function Render(l: Line): (r: seq<byte>)
    ensures |r| == l.indent + 2 + |l.name| + (if l.slash then 1 else 0) + 1
    ensures forall k :: 0 <= k < l.indent ==> r[k] == 0x20
    ensures r[l.indent] == 0x2D && r[l.indent + 1] == 0x20
    ensures r[l.indent + 2..l.indent + 2 + |l.name|] == l.name
    ensures l.slash ==> r[|r| - 2] == 0x2F
    ensures r[|r| - 1] == 0x0A
  {
    seq(l.indent, _ => 0x20) + [0x2D, 0x20] + l.name + (if l.slash then [0x2F] else []) + [0x0A]
  }

  /** The whole output of `print_fs(n)`. */
  function Output(n: Node): seq<byte> {
    RenderAll(PrintFs(n))
  }

  function RenderAll(ls: seq<Line>): seq<byte> {
    if |ls| == 0 then [] else Render(ls[0]) + RenderAll(ls[1..])
  }

  /** The names of the entries `cs`. */
  function NamesOf(cs: seq<Node>): set<Name> {
    set c | c in cs :: c.name
  }

  /** The lines of `print_fs(n)`: the node itself without indentation, with
      a "/" for a directory not named "/", then, for a directory, its
      entries at indentation 1. */
  function PrintFs(n: Node): (r: seq<Line>)
    ensures |r| > 0 && r[0].indent == 0
    ensures forall k :: 1 <= k < |r| ==> r[k].indent >= 1
  {
    [Line(0, n.name, n.isDir && n.name != RootName)] + (if n.isDir then Listing(n, 1) else [])
  }

  /** `_print_fs(n, indent)`: first every directory entry, each followed by
      its own listing one deeper, then every File entry. */
  function Listing(n: Node, indent: nat): (r: seq<Line>)
    ensures forall k :: 0 <= k < |r| ==> r[k].indent >= indent
    ensures forall k :: 0 <= k < |r| && r[k].indent == indent ==> r[k].name in NamesOf(n.children)
    decreases n, 1
  {
    DirLines(n.children, 0, indent) + FileLines(n.children, 0, indent)
  }

  function DirLines(cs: seq<Node>, i: nat, indent: nat): (r: seq<Line>)
    ensures forall k :: 0 <= k < |r| ==> r[k].indent >= indent
    ensures forall k :: 0 <= k < |r| && r[k].indent == indent ==> r[k].slash && r[k].name in NamesOf(cs)
    decreases cs, |cs| - i
  {
    if i >= |cs| then []
    else
      (if cs[i].isDir then [Line(indent, cs[i].name, true)] + Listing(cs[i], indent + 1) else [])
      + DirLines(cs, i + 1, indent)
  }

  function FileLines(cs: seq<Node>, i: nat, indent: nat): (r: seq<Line>)
    ensures i <= |cs| ==> |r| <= |cs| - i
    ensures forall k :: 0 <= k < |r| ==> r[k].indent == indent && !r[k].slash && r[k].name in NamesOf(cs)
    decreases |cs| - i
  {
    if i >= |cs| then []
    else (if cs[i].isDir then [] else [Line(indent, cs[i].name, false)]) + FileLines(cs, i + 1, indent)
  }

  /** The paths of the nodes `print_fs(n)` prints, in order. */
  function PrintOrder(n: Node): (r: seq<Path>)
    ensures |r| > 0 && r[0] == []
    decreases n, 1
  {
    [[]] + (if n.isDir then DirsFrom(n.children, 0) + FilesFrom(n.children, 0) else [])
  }

  function DirsFrom(cs: seq<Node>, i: nat): seq<Path>
    decreases cs, |cs| - i
  {
    if i >= |cs| then []
    else (if cs[i].isDir then Prefixed(i, PrintOrder(cs[i])) else []) + DirsFrom(cs, i + 1)
  }

  function FilesFrom(cs: seq<Node>, i: nat): seq<Path>
    decreases |cs| - i
  {
    if i >= |cs| then [] else (if cs[i].isDir then [] else [[i]]) + FilesFrom(cs, i + 1)
  }

  /** Among the entries of one directory, entry `i` is listed before entry
      `j`: a directory before a File, and entries of one kind in insertion
      order. */
  predicate EntryBefore(cs: seq<Node>, i: nat, j: nat)
    requires i < |cs| && j < |cs|
  {
    (cs[i].isDir && !cs[j].isDir) || (cs[i].isDir == cs[j].isDir && i < j)
  }

  /** The order `print_fs` promises, stated on the tree: `p` is printed
      before `q` when `p` is above `q`, or when at the first step where they
      part `p` takes an entry listed before the one `q` takes. */
  predicate PrintBefore(n: Node, p: Path, q: Path)
    requires ValidPath(n, p) && ValidPath(n, q)
    decreases |p|
  {
    if |p| == 0 then |q| > 0
    else if |q| == 0 then false
    else if p[0] == q[0] then PrintBefore(n.children[p[0]], p[1..], q[1..])
    else EntryBefore(n.children, p[0], q[0])
  }

  lemma {:induction false} PrintBeforeIrreflexive(n: Node, p: Path)
    requires ValidPath(n, p)
    ensures !PrintBefore(n, p, p)
    decreases |p|
  {
    if |p| > 0 {
      PrintBeforeIrreflexive(n.children[p[0]], p[1..]);
    }
  }

  /** The line `print_fs(n)` prints for the node at `p`: indented by its
      depth, with a "/" after a directory's name, except at the root, where
      a directory named "/" gets none. */
  function LineAt(n: Node, p: Path): Line
    requires ValidPath(n, p)
  {
    var m := NodeAt(n, p);
    Line(|p|, m.name, m.isDir && (|p| > 0 || n.name != RootName))
  }

  /** The order lists one path per node, each leading to a node, sorted by
      PrintBefore. */
  lemma {:induction false} PrintOrderShape(n: Node)
    ensures |PrintOrder(n)| == Count(n)
    ensures forall k :: 0 <= k < |PrintOrder(n)| ==> ValidPath(n, PrintOrder(n)[k])
    ensures forall a, b :: 0 <= a < b < |PrintOrder(n)| ==>
              PrintBefore(n, PrintOrder(n)[a], PrintOrder(n)[b])
    decreases n, 1
  {
    if n.isDir {
      var cs := n.children;
      var ds := DirsFrom(cs, 0);
      var fs := FilesFrom(cs, 0);
      DirsFromShape(n, 0);
      FilesFromShape(n, 0);
      CountSplit(cs, 0);
      var r := PrintOrder(n);
      assert r == [[]] + ds + fs;
      forall a, b | 0 <= a < b < |r|
        ensures PrintBefore(n, r[a], r[b])
      {
        if a == 0 {
        } else if b <= |ds| {
          assert r[a] == ds[a - 1] && r[b] == ds[b - 1];
        } else if a <= |ds| {
          assert r[a] == ds[a - 1] && r[b] == fs[b - 1 - |ds|];
        } else {
          assert r[a] == fs[a - 1 - |ds|] && r[b] == fs[b - 1 - |ds|];
        }
      }
    }
  }

  lemma {:induction false} DirsFromShape(n: Node, i: nat)
    requires n.isDir && i <= |n.children|
    ensures forall k :: 0 <= k < |DirsFrom(n.children, i)| ==>
              var p := DirsFrom(n.children, i)[k];
              && |p| > 0 && i <= p[0] < |n.children| && n.children[p[0]].isDir
              && ValidPath(n, p)
    ensures forall a, b :: 0 <= a < b < |DirsFrom(n.children, i)| ==>
              PrintBefore(n, DirsFrom(n.children, i)[a], DirsFrom(n.children, i)[b])
    decreases n.children, |n.children| - i
  {
    var cs := n.children;
    if i < |cs| {
      DirsFromShape(n, i + 1);
      var rest := DirsFrom(cs, i + 1);
      var left := if cs[i].isDir then Prefixed(i, PrintOrder(cs[i])) else [];
      if cs[i].isDir {
        BlockShape(n, i);
      }
      var r := left + rest;
      assert DirsFrom(cs, i) == r;
      forall k | 0 <= k < |r|
        ensures r[k] == if k < |left| then left[k] else rest[k - |left|]
      {
      }
      forall a, b | 0 <= a < b < |r|
        ensures PrintBefore(n, r[a], r[b])
      {
        if a < |left| <= b {
          assert r[a] == left[a] && r[b] == rest[b - |left|];
        }
      }
    }
  }

  /** The lines of a directory entry's subtree, as paths from its parent. */
  lemma {:induction false} BlockShape(n: Node, i: nat)
    requires n.isDir && i < |n.children| && n.children[i].isDir
    ensures forall k :: 0 <= k < |Prefixed(i, PrintOrder(n.children[i]))| ==>
              var p := Prefixed(i, PrintOrder(n.children[i]))[k];
              |p| > 0 && p[0] == i && ValidPath(n, p)
    ensures forall a, b :: 0 <= a < b < |Prefixed(i, PrintOrder(n.children[i]))| ==>
              PrintBefore(n, Prefixed(i, PrintOrder(n.children[i]))[a],
                          Prefixed(i, PrintOrder(n.children[i]))[b])
    decreases n.children, 0
  {
    var here := PrintOrder(n.children[i]);
    PrintOrderShape(n.children[i]);
    var left := Prefixed(i, here);
    forall k | 0 <= k < |left|
      ensures |left[k]| > 0 && left[k][0] == i && ValidPath(n, left[k])
    {
      assert left[k][1..] == here[k];
    }
    forall a, b | 0 <= a < b < |left|
      ensures PrintBefore(n, left[a], left[b])
    {
      assert left[a][1..] == here[a] && left[b][1..] == here[b];
    }
  }

  lemma {:induction false} FilesFromShape(n: Node, i: nat)
    requires n.isDir && i <= |n.children|
    ensures forall k :: 0 <= k < |FilesFrom(n.children, i)| ==>
              var p := FilesFrom(n.children, i)[k];
              && |p| == 1 && i <= p[0] < |n.children| && !n.children[p[0]].isDir
              && ValidPath(n, p)
    ensures forall a, b :: 0 <= a < b < |FilesFrom(n.children, i)| ==>
              FilesFrom(n.children, i)[a][0] < FilesFrom(n.children, i)[b][0]
    decreases |n.children| - i
  {
    var cs := n.children;
    if i < |cs| {
      FilesFromShape(n, i + 1);
      var rest := FilesFrom(cs, i + 1);
      var here: seq<Path> := if cs[i].isDir then [] else [[i]];
      var r := here + rest;
      assert FilesFrom(cs, i) == r;
      assert !cs[i].isDir ==> ValidPath(n, [i]) by {
        assert [i][1..] == [];
      }
      forall k | 0 <= k < |r|
        ensures r[k] == if k < |here| then [i] else rest[k - |here|]
      {
      }
    }
  }

  /** Every entry of a directory contributes its whole subtree to the
      listing when it is a directory, and one line when it is a File. */
  lemma {:induction false} CountSplit(cs: seq<Node>, i: nat)
    requires i <= |cs|
    ensures |DirsFrom(cs, i)| + |FilesFrom(cs, i)| == CountFrom(cs, i)
    decreases cs, |cs| - i
  {
    if i < |cs| {
      CountSplit(cs, i + 1);
      if cs[i].isDir {
        PrintOrderShape(cs[i]);
      }
    }
  }

  /** `print_fs` prints no node twice. */
  lemma PrintOnce(n: Node)
    ensures NoDup(PrintOrder(n))
  {
    PrintOrderShape(n);
    var r := PrintOrder(n);
    forall a, b | 0 <= a < b < |r|
      ensures r[a] != r[b]
    {
      PrintBeforeIrreflexive(n, r[a]);
    }
  }

  /** `print_fs` prints every node of the tree. */
  lemma {:induction false} PrintCovers(n: Node, p: Path)
    requires ValidPath(n, p)
    ensures p in PrintOrder(n)
    decreases |p|
  {
    if |p| > 0 {
      var cs := n.children;
      var j := p[0];
      assert p == [j] + p[1..];
      if cs[j].isDir {
        PrintCovers(cs[j], p[1..]);
        DirsFromCovers(cs, 0, j, p[1..]);
        assert PrintOrder(n) == [[]] + DirsFrom(cs, 0) + FilesFrom(cs, 0);
      } else {
        assert p == [j];
        FilesFromCovers(cs, 0, j);
        assert PrintOrder(n) == [[]] + DirsFrom(cs, 0) + FilesFrom(cs, 0);
      }
    } else {
      assert PrintOrder(n)[0] == [];
    }
  }

  lemma {:induction false} DirsFromCovers(cs: seq<Node>, i: nat, j: nat, q: Path)
    requires i <= j < |cs| && cs[j].isDir && q in PrintOrder(cs[j])
    ensures [j] + q in DirsFrom(cs, i)
    decreases j - i
  {
    if i == j {
      var here := Prefixed(i, PrintOrder(cs[i]));
      assert DirsFrom(cs, i) == here + DirsFrom(cs, i + 1);
      var k :| 0 <= k < |PrintOrder(cs[j])| && PrintOrder(cs[j])[k] == q;
      assert here[k] == [j] + q;
    } else {
      DirsFromCovers(cs, i + 1, j, q);
      var here := if cs[i].isDir then Prefixed(i, PrintOrder(cs[i])) else [];
      assert DirsFrom(cs, i) == here + DirsFrom(cs, i + 1);
    }
  }

  lemma {:induction false} FilesFromCovers(cs: seq<Node>, i: nat, j: nat)
    requires i <= j < |cs| && !cs[j].isDir
    ensures [j] in FilesFrom(cs, i)
    decreases j - i
  {
    if i < j {
      FilesFromCovers(cs, i + 1, j);
    }
  }

  /** Together: `print_fs` prints exactly the nodes of the tree, each once,
      the root first. */
  lemma PrintExactlyOnce(n: Node, p: Path)
    ensures p in PrintOrder(n) <==> ValidPath(n, p)
    ensures NoDup(PrintOrder(n)) && |PrintOrder(n)| == Count(n)
    ensures PrintOrder(n)[0] == []
  {
    PrintOrderShape(n);
    PrintOnce(n);
    if ValidPath(n, p) {
      PrintCovers(n, p);
    }
  }

  /** The line `_print_fs(n, indent)` prints for the node at the non-empty
      path `p` below `n`: indented by `indent` plus its depth below the
      entries of `n`. */
  function ChildLine(n: Node, p: Path, indent: nat): Line
    requires ValidPath(n, p) && |p| > 0
  {
    Line(indent + |p| - 1, NodeAt(n, p).name, NodeAt(n, p).isDir)
  }

  lemma NodeAtStep(n: Node, i: nat, q: Path)
    requires ValidPath(n, [i] + q)
    ensures i < |n.children| && ValidPath(n.children[i], q)
    ensures NodeAt(n, [i] + q) == NodeAt(n.children[i], q)
  {
    assert ([i] + q)[1..] == q;
  }

  /** `_print_fs(n, indent)` prints, line for line, the entries of `n` in
      the order DirsFrom and FilesFrom give. */
  lemma {:induction false} ListingLines(n: Node, indent: nat)
    requires n.isDir
    ensures var ps := DirsFrom(n.children, 0) + FilesFrom(n.children, 0);
            && |Listing(n, indent)| == |ps|
            && forall k :: 0 <= k < |ps| ==>
                 |ps[k]| > 0 && ValidPath(n, ps[k]) && Listing(n, indent)[k] == ChildLine(n, ps[k], indent)
    decreases n, 1
  {
    var ds := DirsFrom(n.children, 0);
    var fs := FilesFrom(n.children, 0);
    DirLinesMatch(n, 0, indent);
    FileLinesMatch(n, 0, indent);
    var ps := ds + fs;
    var ls := Listing(n, indent);
    assert ls == DirLines(n.children, 0, indent) + FileLines(n.children, 0, indent);
    forall k | 0 <= k < |ps|
      ensures |ps[k]| > 0 && ValidPath(n, ps[k]) && ls[k] == ChildLine(n, ps[k], indent)
    {
      if k < |ds| {
        assert ps[k] == ds[k];
      } else {
        assert ps[k] == fs[k - |ds|];
      }
    }
  }

  lemma {:induction false} DirLinesMatch(n: Node, i: nat, indent: nat)
    requires n.isDir && i <= |n.children|
    ensures |DirLines(n.children, i, indent)| == |DirsFrom(n.children, i)|
    ensures forall k :: 0 <= k < |DirsFrom(n.children, i)| ==>
              var p := DirsFrom(n.children, i)[k];
              && |p| > 0 && ValidPath(n, p)
              && DirLines(n.children, i, indent)[k] == ChildLine(n, p, indent)
    decreases n.children, |n.children| - i
  {
    var cs := n.children;
    if i < |cs| {
      DirLinesMatch(n, i + 1, indent);
      var rest := DirsFrom(cs, i + 1);
      var restLines := DirLines(cs, i + 1, indent);
      var left := if cs[i].isDir then Prefixed(i, PrintOrder(cs[i])) else [];
      var leftLines := if cs[i].isDir then [Line(indent, cs[i].name, true)] + Listing(cs[i], indent + 1) else [];
      if cs[i].isDir {
        BlockLines(n, i, indent);
      }
      assert DirsFrom(cs, i) == left + rest;
      assert DirLines(cs, i, indent) == leftLines + restLines;
      forall k | 0 <= k < |left + rest|
        ensures var p := (left + rest)[k];
                |p| > 0 && ValidPath(n, p) && (leftLines + restLines)[k] == ChildLine(n, p, indent)
      {
        if k >= |left| {
          assert (left + rest)[k] == rest[k - |left|];
          assert (leftLines + restLines)[k] == restLines[k - |left|];
        }
      }
    }
  }

  /** A directory entry's line and its listing one deeper match the paths
      of its subtree. */
  lemma {:induction false} BlockLines(n: Node, i: nat, indent: nat)
    requires n.isDir && i < |n.children| && n.children[i].isDir
    ensures var left := Prefixed(i, PrintOrder(n.children[i]));
            var lines := [Line(indent, n.children[i].name, true)] + Listing(n.children[i], indent + 1);
            && |lines| == |left|
            && forall k :: 0 <= k < |left| ==>
                 |left[k]| > 0 && ValidPath(n, left[k]) && lines[k] == ChildLine(n, left[k], indent)
    decreases n.children, 0
  {
    var c := n.children[i];
    var here := PrintOrder(c);
    var left := Prefixed(i, here);
    var lines := [Line(indent, c.name, true)] + Listing(c, indent + 1);
    ListingLines(c, indent + 1);
    var below := DirsFrom(c.children, 0) + FilesFrom(c.children, 0);
    assert here == [[]] + below;
    forall k | 0 <= k < |left|
      ensures |left[k]| > 0 && ValidPath(n, left[k]) && lines[k] == ChildLine(n, left[k], indent)
    {
      var q := here[k];
      assert left[k] == [i] + q;
      assert ValidPath(n, [i] + q) by {
        assert ([i] + q)[1..] == q;
      }
      NodeAtStep(n, i, q);
      if k > 0 {
        assert q == below[k - 1];
        assert lines[k] == Listing(c, indent + 1)[k - 1];
      }
    }
  }

  lemma {:induction false} FileLinesMatch(n: Node, i: nat, indent: nat)
    requires n.isDir && i <= |n.children|
    ensures |FileLines(n.children, i, indent)| == |FilesFrom(n.children, i)|
    ensures forall k :: 0 <= k < |FilesFrom(n.children, i)| ==>
              var p := FilesFrom(n.children, i)[k];
              && |p| > 0 && ValidPath(n, p)
              && FileLines(n.children, i, indent)[k] == ChildLine(n, p, indent)
    decreases |n.children| - i
  {
    var cs := n.children;
    if i < |cs| {
      FileLinesMatch(n, i + 1, indent);
      var rest := FilesFrom(cs, i + 1);
      var restLines := FileLines(cs, i + 1, indent);
      var left: seq<Path> := if cs[i].isDir then [] else [[i]];
      var leftLines := if cs[i].isDir then [] else [Line(indent, cs[i].name, false)];
      if !cs[i].isDir {
        assert ValidPath(n, [i] + []) by {
          assert ([i] + [])[1..] == [];
        }
        NodeAtStep(n, i, []);
        assert [i] + [] == [i];
      }
      assert FilesFrom(cs, i) == left + rest;
      assert FileLines(cs, i, indent) == leftLines + restLines;
      forall k | 0 <= k < |left + rest|
        ensures var p := (left + rest)[k];
                |p| > 0 && ValidPath(n, p) && (leftLines + restLines)[k] == ChildLine(n, p, indent)
      {
        if k >= |left| {
          assert (left + rest)[k] == rest[k - |left|];
          assert (leftLines + restLines)[k] == restLines[k - |left|];
        }
      }
    }
  }

  /** `print_fs(n)` prints, line for line, the line of each node in
      PrintOrder: so it prints exactly the tree's nodes, each once, in the
      order PrintBefore describes, each indented by its depth. */
  lemma PrintFsLines(n: Node)
    ensures |PrintFs(n)| == |PrintOrder(n)| == Count(n)
    ensures forall k :: 0 <= k < |PrintOrder(n)| ==>
              ValidPath(n, PrintOrder(n)[k]) && PrintFs(n)[k] == LineAt(n, PrintOrder(n)[k])
  {
    PrintOrderShape(n);
    var ps := PrintOrder(n);
    var ls := PrintFs(n);
    if n.isDir {
      ListingLines(n, 1);
      var below := DirsFrom(n.children, 0) + FilesFrom(n.children, 0);
      assert ps == [[]] + below;
      assert ls == [ls[0]] + Listing(n, 1);
      forall k | 0 < k < |ps|
        ensures ls[k] == LineAt(n, ps[k])
      {
        assert ps[k] == below[k - 1];
        assert ls[k] == Listing(n, 1)[k - 1];
      }
    }
  }

  /** The bytes `print_fs(n)` writes are the rendered lines of the tree's
      nodes, one per node, taken in PrintOrder. */
  lemma OutputLines(n: Node, ls: seq<Line>)
    requires |ls| == |PrintOrder(n)|
    requires forall k :: 0 <= k < |ls| ==> ValidPath(n, PrintOrder(n)[k]) && ls[k] == LineAt(n, PrintOrder(n)[k])
    ensures |ls| == Count(n) && Output(n) == RenderAll(ls)
  {
    PrintFsLines(n);
    assert PrintFs(n) == ls;
  }
}

=== FILE: release.dfy ===
/** `free_fs`: the order in which a tree's nodes are released. A node is
    named by its path (Inode.Path); the traversal visits the children of a
    directory in insertion order, releases each subtree, and releases the
    node itself last. A File's slots are never traversed. */
module Release {
  import opened Inode

  /** The paths of `ps`, each extended at the front by the step `i`. */
  function Prefixed(i: nat, ps: seq<Path>): (r: seq<Path>)
    ensures |r| == |ps|
    ensures forall k :: 0 <= k < |ps| ==> r[k] == [i] + ps[k]
  {
    seq(|ps|, k requires 0 <= k < |ps| => [i] + ps[k])
  }

  predicate NoDup(ps: seq<Path>) {
    forall a, b :: 0 <= a < b < |ps| ==> ps[a] != ps[b]
  }

  /** Post-order, stated on paths alone: `p` goes before `q` when `p` lies
      strictly below `q`, or when at the first step where they part `p`
      takes the earlier entry. */
  predicate PostBefore(p: Path, q: Path)
    decreases |p|
  {
    if |q| == 0 then |p| > 0
    else if |p| == 0 then false
    else if p[0] == q[0] then PostBefore(p[1..], q[1..])
    else p[0] < q[0]
  }

  lemma {:induction false} PostBeforeIrreflexive(p: Path)
    ensures !PostBefore(p, p)
    decreases |p|
  {
    if |p| > 0 {
      PostBeforeIrreflexive(p[1..]);
    }
  }

  /** The paths of the nodes `free_fs(n)` releases, in the order it
      releases them: the node itself last, everything before it strictly
      below it. */
  function Release(n: Node): (r: seq<Path>)
    ensures |r| > 0 && r[|r| - 1] == []
    ensures forall k :: 0 <= k < |r| - 1 ==> |r[k]| > 0
    decreases n, 1
  {
    (if n.isDir then ReleaseFrom(n.children, 0) else []) + [[]]
  }

  /** The children `cs[i..]` released one subtree after the other; every
      path released descends into one of them. */
  function ReleaseFrom(cs: seq<Node>, i: nat): (r: seq<Path>)
    ensures forall k :: 0 <= k < |r| ==> |r[k]| > 0 && i <= r[k][0] < |cs|
    decreases cs, |cs| - i
  {
    if i >= |cs| then [] else Prefixed(i, Release(cs[i])) + ReleaseFrom(cs, i + 1)
  }

  /** Every node is released once for each node of the tree, each at a path
      that leads to a node, each node after everything below it and after
      its earlier siblings' subtrees. */
  lemma {:induction false} ReleaseShape(n: Node)
    ensures var r := Release(n);
            && |r| == Count(n)
            && (forall k :: 0 <= k < |r| ==> ValidPath(n, r[k]))
            && (forall a, b :: 0 <= a < b < |r| ==> PostBefore(r[a], r[b]))
    decreases n, 1
  {
    var r := Release(n);
    var below := if n.isDir then ReleaseFrom(n.children, 0) else [];
    if n.isDir {
      ReleaseFromShape(n, 0);
    }
    assert r == below + [[]];
    forall a, b | 0 <= a < b < |r|
      ensures PostBefore(r[a], r[b])
    {
      if b == |r| - 1 {
        assert r[a] == below[a];
      } else {
        assert r[a] == below[a] && r[b] == below[b];
      }
    }
  }

  lemma {:induction false} ReleaseFromShape(n: Node, i: nat)
    requires n.isDir && i <= |n.children|
    ensures var r := ReleaseFrom(n.children, i);
            && |r| == CountFrom(n.children, i)
            && (forall k :: 0 <= k < |r| ==> |r[k]| > 0 && i <= r[k][0] && ValidPath(n, r[k]))
            && (forall a, b :: 0 <= a < b < |r| ==> PostBefore(r[a], r[b]))
    decreases n.children, |n.children| - i
  {
    var cs := n.children;
    if i < |cs| {
      ReleaseShape(cs[i]);
      ReleaseFromShape(n, i + 1);
      ConcatShape(n, i, Release(cs[i]), ReleaseFrom(cs, i + 1));
    }
  }

  /** The paths released for child `i` and then for the later children lead
      to nodes below `n`, in post-order. */
  lemma ConcatShape(n: Node, i: nat, here: seq<Path>, rest: seq<Path>)
    requires n.isDir && i < |n.children|
    requires forall k :: 0 <= k < |here| ==> ValidPath(n.children[i], here[k])
    requires forall a, b :: 0 <= a < b < |here| ==> PostBefore(here[a], here[b])
    requires forall k :: 0 <= k < |rest| ==> |rest[k]| > 0 && i + 1 <= rest[k][0] && ValidPath(n, rest[k])
    requires forall a, b :: 0 <= a < b < |rest| ==> PostBefore(rest[a], rest[b])
    ensures var r := Prefixed(i, here) + rest;
            && (forall k :: 0 <= k < |r| ==> |r[k]| > 0 && i <= r[k][0] && ValidPath(n, r[k]))
            && (forall a, b :: 0 <= a < b < |r| ==> PostBefore(r[a], r[b]))
  {
    var left := Prefixed(i, here);
    var r := left + rest;
    forall k | 0 <= k < |r|
      ensures |r[k]| > 0 && i <= r[k][0] && ValidPath(n, r[k])
    {
      if k < |left| {
        assert r[k] == [i] + here[k];
        assert r[k][1..] == here[k];
      } else {
        assert r[k] == rest[k - |left|];
      }
    }
    forall a, b | 0 <= a < b < |r|
      ensures PostBefore(r[a], r[b])
    {
      if b < |left| {
        assert r[a][1..] == here[a] && r[b][1..] == here[b];
      } else if a < |left| {
        assert r[b] == rest[b - |left|];
      } else {
        assert r[a] == rest[a - |left|] && r[b] == rest[b - |left|];
      }
    }
  }

  /** `free_fs` releases no node twice. */
  lemma ReleaseOnce(n: Node)
    ensures NoDup(Release(n))
  {
    ReleaseShape(n);
    var r := Release(n);
    forall a, b | 0 <= a < b < |r|
      ensures r[a] != r[b]
    {
      PostBeforeIrreflexive(r[a]);
    }
  }

  /** `free_fs` releases every node of the tree. */
  lemma {:induction false} ReleaseCovers(n: Node, p: Path)
    requires ValidPath(n, p)
    ensures p in Release(n)
    decreases |p|
  {
    if |p| > 0 {
      ReleaseCovers(n.children[p[0]], p[1..]);
      ReleaseFromCovers(n.children, 0, p[0], p[1..]);
      assert p == [p[0]] + p[1..];
      assert Release(n) == ReleaseFrom(n.children, 0) + [[]];
    } else {
      assert Release(n)[|Release(n)| - 1] == [];
    }
  }

  lemma {:induction false} ReleaseFromCovers(cs: seq<Node>, i: nat, j: nat, q: Path)
    requires i <= j < |cs| && q in Release(cs[j])
    ensures [j] + q in ReleaseFrom(cs, i)
    decreases j - i
  {
    var here := Prefixed(i, Release(cs[i]));
    assert ReleaseFrom(cs, i) == here + ReleaseFrom(cs, i + 1);
    if i == j {
      var k :| 0 <= k < |Release(cs[j])| && Release(cs[j])[k] == q;
      assert here[k] == [j] + q;
    } else {
      ReleaseFromCovers(cs, i + 1, j, q);
    }
  }

  /** Together: the release order is a listing of exactly the tree's nodes,
      each once, children before their parents. */
  lemma ReleaseExactlyOnce(n: Node, p: Path)
    ensures p in Release(n) <==> ValidPath(n, p)
    ensures NoDup(Release(n)) && |Release(n)| == Count(n)
  {
    ReleaseShape(n);
    ReleaseOnce(n);
    if ValidPath(n, p) {
      ReleaseCovers(n, p);
    }
  }
}

=== FILE: results.dfy ===
/** Failure-compatible wrappers shared by the whole model, and the error
    taxonomy of the in-memory file-system tree. */
module Results {

  /** Why an operation produced no value.
      - TruncatedInput: a read of the table would run past the end of the buffer.
      - MalformedRecord: a length or count field of the table is out of range.
      - NotADirectory: a namespace operation was applied to a File node.
      - ResourceExhausted: a child store cannot grow any further. */
  datatype Error = TruncatedInput | MalformedRecord | NotADirectory | ResourceExhausted

  datatype Option<+T> = None | Some(value: T)

  datatype Result<+T> = Ok(value: T) | Err(error: Error) {

    predicate IsFailure() {
      Err?
    }

    function PropagateFailure<U>(): Result<U>
      requires Err?
    {
      Err(error)
    }

    function Extract(): T
      requires Ok?
    {
      value
    }
  }
}

=== FILE: table.dfy ===
/** The master file table decoder, `load_inode_from_table`: it reads one
    record at a cursor and recursively the records of a directory's children.
    A record is, with no padding:
      id (int32), name length L counting the terminator (int32),
      L name bytes, directory flag (1 byte), readonly flag (1 byte),
      size (int32), child count N (int32),
      N placeholder slots of PointerWidth bytes,
      and, for a directory only, N child records.
    Unlike the source, every read is checked against the end of the buffer. */
module Table {
  import opened Results
  import opened Bytes
  import opened Inode

  /** The width of the `uintptr_t` placeholder slots on the 64-bit hosts the
      source targets. */
  const PointerWidth: nat := 8

  /** Bytes of a record before its children: the fixed fields, the name and
      the placeholder slots. */
  function HeaderSize(nameLen: int, count: int): int {
    4 + 4 + nameLen + 1 + 1 + 4 + 4 + PointerWidth * count
  }

  /** A decoded subtree, the cursor after it, and the next-id counter. */
  datatype Decoded = Decoded(node: Node, next: nat, counter: int)

  /** Decoded sibling subtrees, in table order. */
  datatype DecodedSeq = DecodedSeq(nodes: seq<Node>, next: nat, counter: int)

  /** The name `strncpy` leaves in a buffer of `|raw|` bytes: the bytes
      before the first zero, or all of them when there is none. */
  function NameFrom(raw: seq<byte>): (name: Name)
    ensures NoZero(name)
    ensures |name| <= |raw| && name == raw[..|name|]
    ensures |name| < |raw| ==> raw[|name|] == 0
  {
    if |raw| == 0 || raw[0] == 0 then [] else [raw[0]] + NameFrom(raw[1..])
  }

  /** The fields of one record, read into a childless node, and the cursor
      at its first child record. */
  datatype Record = Record(node: Node, next: nat)

  /** Reads the fields of the record at `pos` and skips its placeholder
      slots. A name length below one or a negative child count is malformed;
      every read is checked against the end of the buffer. The node keeps the
      child count as its slot count, as `entries_size = num_entries` does.
      The contract gives the outcome for every buffer: truncated when the
      id and name length, then the name and the fixed fields, then the slots
      run past the end; malformed on a bad name length or count; otherwise
      each field is read from its own offset, any nonzero flag byte reading
      as true. */
  function ReadRecord(buf: seq<byte>, pos: nat): (r: Result<Record>)
    requires pos <= |buf|
    ensures |buf| - pos < 8 ==> r == Err(TruncatedInput)
    ensures |buf| - pos >= 8 ==>
              && (I32At(buf, pos + 4) < 1 ==> r == Err(MalformedRecord))
              && (1 <= I32At(buf, pos + 4) && |buf| - pos < HeaderSize(I32At(buf, pos + 4), 0) ==>
                    r == Err(TruncatedInput))
    ensures |buf| - pos >= 8 && 1 <= I32At(buf, pos + 4) && HeaderSize(I32At(buf, pos + 4), 0) <= |buf| - pos ==>
              var nameLen := I32At(buf, pos + 4);
              var p := pos + 8 + nameLen;
              var count := I32At(buf, p + 6);
              && (count < 0 ==> r == Err(MalformedRecord))
              && (0 <= count && |buf| - pos < HeaderSize(nameLen, count) ==> r == Err(TruncatedInput))
              && (0 <= count && HeaderSize(nameLen, count) <= |buf| - pos ==>
                    r == Ok(Record(Node(I32At(buf, pos), NameFrom(buf[pos + 8..p]), buf[p] != 0, buf[p + 1] != 0,
                                        I32At(buf, p + 2), [], count),
                                   pos + HeaderSize(nameLen, count))))
    ensures r.Ok? ==> pos + HeaderSize(1, 0) <= r.value.next <= |buf|
    ensures r.Ok? ==> r.value.node.children == [] && 0 <= r.value.node.capacity
    ensures r.Ok? ==> && r.value.node.id == I32At(buf, pos)
                      && 1 <= I32At(buf, pos + 4)
                      && |r.value.node.name| <= I32At(buf, pos + 4)
                      && r.value.next == pos + HeaderSize(I32At(buf, pos + 4), r.value.node.capacity)
  {
    if |buf| - pos < 8 then Err(TruncatedInput)
    else
      var id := I32At(buf, pos);
      var nameLen := I32At(buf, pos + 4);
      if nameLen < 1 then Err(MalformedRecord)
      else if |buf| - (pos + 8) < nameLen then Err(TruncatedInput)
      else
        var name := NameFrom(buf[pos + 8..pos + 8 + nameLen]);
        var p := pos + 8 + nameLen;
        if |buf| - p < 10 then Err(TruncatedInput)
        else
          var isDir := buf[p] != 0;
          var readonly := buf[p + 1] != 0;
          var size := I32At(buf, p + 2);
          var count := I32At(buf, p + 6);
          if count < 0 then Err(MalformedRecord)
          else if |buf| - (p + 10) < PointerWidth * count then Err(TruncatedInput)
          else
            var node := InitInode().(id := id, name := name, isDir := isDir,
                                     readonly := readonly, size := size, capacity := count);
            Ok(Record(node, p + 10 + PointerWidth * count))
  }

  /** Decodes the record at `pos` and, for a directory, its children. The
      counter models the source's global ID_COUNTER, which every decoded
      record sets to its own id plus one. */
  function Decode(buf: seq<byte>, pos: nat): (r: Result<Decoded>)
    requires pos <= |buf|
    ensures r.Ok? ==> pos + HeaderSize(1, 0) <= r.value.next <= |buf|
    ensures r.Err? ==> r.error == TruncatedInput || r.error == MalformedRecord
    decreases |buf| - pos, 0
  {
    match ReadRecord(buf, pos)
    case Err(e) => Err(e)
    case Ok(rec) =>
      var node := rec.node;
      if !node.isDir then Ok(Decoded(node, rec.next, node.id + 1))
      else
        match DecodeChildren(buf, rec.next, node.capacity, node.id + 1)
        case Err(e) => Err(e)
        case Ok(ds) => Ok(Decoded(node.(children := ds.nodes), ds.next, ds.counter))
  }

  /** The counter after decoding the sibling subtrees `ns`: one past the id
      of the last record of the last subtree, or unchanged when there are none. */
  function CounterAfter(ns: seq<Node>, counter: int): int {
    if |ns| == 0 then counter else LastDecoded(ns[|ns| - 1]).id + 1
  }

  /** Decodes `k` consecutive sibling records starting at `pos`. */
  function DecodeChildren(buf: seq<byte>, pos: nat, k: nat, counter: int): (r: Result<DecodedSeq>)
    requires pos <= |buf|
    ensures r.Ok? ==> pos <= r.value.next <= |buf|
    ensures r.Err? ==> r.error == TruncatedInput || r.error == MalformedRecord
    decreases |buf| - pos, k
  {
    if k == 0 then Ok(DecodedSeq([], pos, counter))
    else
      var d :- Decode(buf, pos);
      var ds :- DecodeChildren(buf, d.next, k - 1, d.counter);
      Ok(DecodedSeq([d.node] + ds.nodes, ds.next, ds.counter))
  }

  /** Loads the whole table: the root record starts at the first byte. A
      loaded tree is well formed and the counter is left one past the id of
      its last record in pre-order; LoadParsed says which tree it is. */
  function LoadTable(buf: seq<byte>): (r: Result<Decoded>)
    ensures r.Ok? ==> && WellFormed(r.value.node) && r.value.next <= |buf|
                      && r.value.counter == LastDecoded(r.value.node).id + 1
    ensures r.Err? ==> r.error == TruncatedInput || r.error == MalformedRecord
  {
    DecodeShape(buf, 0);
    Decode(buf, 0)
  }

  /** Every decoded subtree is well formed, keeps the id of its first
      record, and has one child per slot in every directory. Its records
      span at least the first record's fixed fields, name and slots; a File
      spans exactly those, its slots skipped and no child read. The counter
      is left one past the id of the last record in pre-order. */
  lemma {:induction false} DecodeShape(buf: seq<byte>, pos: nat)
    requires pos <= |buf|
    ensures var r := Decode(buf, pos);
            r.Ok? ==> && WellFormed(r.value.node)
                      && r.value.node.id == I32At(buf, pos)
                      && (r.value.node.isDir ==> |r.value.node.children| == r.value.node.capacity)
                      && r.value.next >= pos + HeaderSize(I32At(buf, pos + 4), r.value.node.capacity)
                      && (!r.value.node.isDir ==>
                            && r.value.node.children == []
                            && r.value.next == pos + HeaderSize(I32At(buf, pos + 4), r.value.node.capacity))
                      && r.value.counter == LastDecoded(r.value.node).id + 1
    decreases |buf| - pos, 0
  {
    match ReadRecord(buf, pos)
    case Err(_) =>
    case Ok(rec) =>
      if rec.node.isDir {
        DecodeChildrenShape(buf, rec.next, rec.node.capacity, rec.node.id + 1);
      }
  }

  lemma {:induction false} DecodeChildrenShape(buf: seq<byte>, pos: nat, k: nat, counter: int)
    requires pos <= |buf|
    ensures var r := DecodeChildren(buf, pos, k, counter);
            r.Ok? ==> && |r.value.nodes| == k
                      && (forall i :: 0 <= i < k ==> WellFormed(r.value.nodes[i]))
                      && r.value.counter == CounterAfter(r.value.nodes, counter)
    decreases |buf| - pos, k
  {
    if k > 0 {
      DecodeShape(buf, pos);
      match Decode(buf, pos)
      case Err(_) =>
      case Ok(d) =>
        DecodeChildrenShape(buf, d.next, k - 1, d.counter);
    }
  }

  /** The name length declared by the record at `pos`, or zero where its
      first two fields do not fit. */
  function NameLenAt(buf: seq<byte>, pos: int): int {
    if 0 <= pos && pos + 8 <= |buf| then I32At(buf, pos + 4) else 0
  }

  /** Where the records of `n` laid out from `pos` end, each record measured
      by the name length and child count it declares: past the first
      record's fixed fields, name and slots, then past each child's records
      in turn. */
  function End(buf: seq<byte>, pos: int, n: Node): int
    decreases n, 1
  {
    var h := pos + HeaderSize(NameLenAt(buf, pos), n.capacity);
    if n.isDir then EndAll(buf, h, n.children) else h
  }

  function EndAll(buf: seq<byte>, pos: int, cs: seq<Node>): int
    decreases cs, 0
  {
    if |cs| == 0 then pos else EndAll(buf, End(buf, pos, cs[0]), cs[1..])
  }

  /** The table holds the tree `n` at `pos`: the first record reads as the
      fields of `n`, a directory has one child per declared slot, and the
      children's records follow the slots and one another in table order,
      each starting where the previous one ends. */
  predicate Parsed(buf: seq<byte>, pos: int, n: Node)
    decreases n, 1
  {
    && 0 <= pos <= |buf|
    && ReadRecord(buf, pos).Ok? && ReadRecord(buf, pos).value.node == n.(children := [])
    && (n.isDir ==> |n.children| == n.capacity
                    && ParsedAll(buf, pos + HeaderSize(NameLenAt(buf, pos), n.capacity), n.children))
    && (!n.isDir ==> n.children == [])
  }

  predicate ParsedAll(buf: seq<byte>, pos: int, cs: seq<Node>)
    decreases cs, 0
  {
    |cs| == 0 || (Parsed(buf, pos, cs[0]) && ParsedAll(buf, End(buf, pos, cs[0]), cs[1..]))
  }

  /** Whatever the decoder returns is the tree the table holds at `pos`, and
      the cursor ends exactly where its records do. */
  lemma {:induction false} DecodeParsed(buf: seq<byte>, pos: nat)
    requires pos <= |buf|
    ensures var r := Decode(buf, pos);
            r.Ok? ==> Parsed(buf, pos, r.value.node) && r.value.next == End(buf, pos, r.value.node)
    decreases |buf| - pos, 0
  {
    match ReadRecord(buf, pos)
    case Err(_) =>
    case Ok(rec) =>
      if rec.node.isDir {
        DecodeChildrenShape(buf, rec.next, rec.node.capacity, rec.node.id + 1);
        DecodeChildrenParsed(buf, rec.next, rec.node.capacity, rec.node.id + 1);
      }
  }

  lemma {:induction false} DecodeChildrenParsed(buf: seq<byte>, pos: nat, k: nat, counter: int)
    requires pos <= |buf|
    ensures var r := DecodeChildren(buf, pos, k, counter);
            r.Ok? ==> ParsedAll(buf, pos, r.value.nodes) && r.value.next == EndAll(buf, pos, r.value.nodes)
    decreases |buf| - pos, k
  {
    if k > 0 {
      DecodeParsed(buf, pos);
      match Decode(buf, pos)
      case Err(_) =>
      case Ok(d) =>
        DecodeChildrenParsed(buf, d.next, k - 1, d.counter);
        match DecodeChildren(buf, d.next, k - 1, d.counter)
        case Err(_) =>
        case Ok(ds) =>
          var nodes := [d.node] + ds.nodes;
          assert nodes[0] == d.node && nodes[1..] == ds.nodes;
      }
  }

  /** Conversely, the decoder returns the tree the table holds. */
  lemma {:induction false} ParsedDecodes(buf: seq<byte>, pos: nat, n: Node)
    requires Parsed(buf, pos, n)
    ensures var r := Decode(buf, pos);
            r.Ok? && r.value.node == n && r.value.next == End(buf, pos, n)
    decreases n, 1
  {
    var rec := ReadRecord(buf, pos).value;
    assert rec.next == pos + HeaderSize(NameLenAt(buf, pos), n.capacity);
    if n.isDir {
      ParsedAllDecodes(buf, rec.next, n.children, n.id + 1);
      assert Decode(buf, pos) == Ok(Decoded(n, EndAll(buf, rec.next, n.children),
                                            DecodeChildren(buf, rec.next, n.capacity, n.id + 1).value.counter));
    }
  }

  lemma {:induction false} ParsedAllDecodes(buf: seq<byte>, pos: nat, cs: seq<Node>, counter: int)
    requires pos <= |buf| && ParsedAll(buf, pos, cs)
    ensures var r := DecodeChildren(buf, pos, |cs|, counter);
            r.Ok? && r.value.nodes == cs && r.value.next == EndAll(buf, pos, cs)
    decreases cs, 0
  {
    if |cs| > 0 {
      ParsedDecodes(buf, pos, cs[0]);
      var d := Decode(buf, pos).value;
      ParsedAllDecodes(buf, d.next, cs[1..], d.counter);
      assert [cs[0]] + cs[1..] == cs;
    }
  }

  /** The decoder succeeds at `pos` with the tree `n` exactly when the table
      holds `n` there, and then stops where the records of `n` end. */
  lemma DecodeExactly(buf: seq<byte>, pos: nat, n: Node)
    requires pos <= |buf|
    ensures (Decode(buf, pos).Ok? && Decode(buf, pos).value.node == n) <==> Parsed(buf, pos, n)
    ensures Decode(buf, pos).Ok? ==> Decode(buf, pos).value.next == End(buf, pos, Decode(buf, pos).value.node)
  {
    DecodeParsed(buf, pos);
    if Parsed(buf, pos, n) {
      ParsedDecodes(buf, pos, n);
    }
  }

  /** A record that reads from `buf` reads the same from any prefix that
      still holds it, and is truncated in any prefix that cuts it. */
  lemma ReadRecordPrefix(buf: seq<byte>, pos: nat, m: nat)
    requires pos <= m <= |buf| && ReadRecord(buf, pos).Ok?
    ensures ReadRecord(buf[..m], pos)
            == if ReadRecord(buf, pos).value.next <= m then ReadRecord(buf, pos) else Err(TruncatedInput)
  {
    var pre := buf[..m];
    if m - pos >= 8 {
      assert I32At(pre, pos) == I32At(buf, pos) && I32At(pre, pos + 4) == I32At(buf, pos + 4);
      var nameLen := I32At(buf, pos + 4);
      var p := pos + 8 + nameLen;
      if HeaderSize(nameLen, 0) <= m - pos {
        assert I32At(pre, p + 2) == I32At(buf, p + 2) && I32At(pre, p + 6) == I32At(buf, p + 6);
        assert pre[pos + 8..p] == buf[pos + 8..p];
      }
    }
  }

  /** The records of a held tree start with its first record's fixed
      fields, name and slots, and end inside the buffer. */
  lemma EndBounds(buf: seq<byte>, pos: nat, n: Node)
    requires Parsed(buf, pos, n)
    ensures pos + 8 <= pos + HeaderSize(NameLenAt(buf, pos), n.capacity) <= End(buf, pos, n) <= |buf|
    ensures ReadRecord(buf, pos).value.next == pos + HeaderSize(NameLenAt(buf, pos), n.capacity)
  {
    ParsedDecodes(buf, pos, n);
    DecodeShape(buf, pos);
  }

  /** The records the table holds at `pos` are held the same by any prefix
      that keeps them all. */
  lemma {:induction false} ParsedShrink(buf: seq<byte>, pos: nat, n: Node, m: nat)
    requires Parsed(buf, pos, n) && End(buf, pos, n) <= m <= |buf|
    ensures Parsed(buf[..m], pos, n) && End(buf[..m], pos, n) == End(buf, pos, n)
    decreases n, 1
  {
    EndBounds(buf, pos, n);
    ReadRecordPrefix(buf, pos, m);
    assert NameLenAt(buf[..m], pos) == NameLenAt(buf, pos);
    if n.isDir {
      ParsedAllShrink(buf, pos + HeaderSize(NameLenAt(buf, pos), n.capacity), n.children, m);
    }
  }

  lemma {:induction false} ParsedAllShrink(buf: seq<byte>, pos: nat, cs: seq<Node>, m: nat)
    requires ParsedAll(buf, pos, cs) && pos <= EndAll(buf, pos, cs) <= m <= |buf|
    ensures ParsedAll(buf[..m], pos, cs) && EndAll(buf[..m], pos, cs) == EndAll(buf, pos, cs)
    decreases cs, 0
  {
    if |cs| > 0 {
      ParsedDecodes(buf, pos, cs[0]);
      var e := End(buf, pos, cs[0]);
      ParsedAllDecodes(buf, e, cs[1..], 0);
      ParsedShrink(buf, pos, cs[0], m);
      ParsedAllShrink(buf, e, cs[1..], m);
    }
  }

  /** Every prefix of the buffer that cuts into the records the table holds
      at `pos` decodes as truncated. */
  lemma {:induction false} ParsedPrefix(buf: seq<byte>, pos: nat, n: Node, m: nat)
    requires Parsed(buf, pos, n) && pos <= m < End(buf, pos, n)
    ensures m <= |buf| && Decode(buf[..m], pos) == Err(TruncatedInput)
    decreases n, 1
  {
    ParsedDecodes(buf, pos, n);
    ReadRecordPrefix(buf, pos, m);
    var h := pos + HeaderSize(NameLenAt(buf, pos), n.capacity);
    if h <= m {
      ParsedAllPrefix(buf, h, n.children, m, n.id + 1);
    }
  }

  lemma {:induction false} ParsedAllPrefix(buf: seq<byte>, pos: nat, cs: seq<Node>, m: nat, counter: int)
    requires pos <= |buf| && ParsedAll(buf, pos, cs) && pos <= m < EndAll(buf, pos, cs)
    ensures m <= |buf| && DecodeChildren(buf[..m], pos, |cs|, counter) == Err(TruncatedInput)
    decreases cs, 0
  {
    ParsedAllDecodes(buf, pos, cs, counter);
    ParsedDecodes(buf, pos, cs[0]);
    var e := End(buf, pos, cs[0]);
    if m < e {
      ParsedPrefix(buf, pos, cs[0], m);
    } else {
      ParsedShrink(buf, pos, cs[0], m);
      ParsedDecodes(buf[..m], pos, cs[0]);
      var d := Decode(buf[..m], pos).value;
      ParsedAllPrefix(buf, e, cs[1..], m, d.counter);
    }
  }

  /** Every strict prefix of a loadable table, cut anywhere before the end
      of its records, fails to load as truncated. */
  lemma TruncatedTable(buf: seq<byte>, m: nat)
    requires LoadTable(buf).Ok? && m < LoadTable(buf).value.next
    ensures LoadTable(buf[..m]) == Err(TruncatedInput)
  {
    DecodeParsed(buf, 0);
    ParsedPrefix(buf, 0, LoadTable(buf).value.node, m);
  }

  /** A record with a negative child count fails to decode as malformed,
      even when the bytes after it would not hold its slots. */
  lemma NegativeCountMalformed(buf: seq<byte>, pos: nat)
    requires pos + 8 <= |buf| && 1 <= I32At(buf, pos + 4)
    requires pos + HeaderSize(I32At(buf, pos + 4), 0) <= |buf|
    requires I32At(buf, pos + 8 + I32At(buf, pos + 4) + 6) < 0
    ensures Decode(buf, pos) == Err(MalformedRecord)
  {
  }

  /** A loaded tree is the tree the table holds from its first byte, and
      the cursor ends where its records do. */
  lemma LoadParsed(buf: seq<byte>)
    ensures var r := LoadTable(buf);
            r.Ok? ==> Parsed(buf, 0, r.value.node) && r.value.next == End(buf, 0, r.value.node)
  {
    DecodeParsed(buf, 0);
  }

  /** An error in the record at `pos` is the decoder's error there. */
  lemma RecordErrorPropagates(buf: seq<byte>, pos: nat)
    requires pos <= |buf| && ReadRecord(buf, pos).Err?
    ensures Decode(buf, pos) == Err(ReadRecord(buf, pos).error)
  {
  }

  /** When the first siblings `cs` of `k` are held and the subtree after
      them fails to decode, decoding the `k` siblings fails with that same
      error. */
  lemma {:induction false} SiblingErrorPropagates(buf: seq<byte>, pos: nat, cs: seq<Node>, k: nat, counter: int)
    requires pos <= |buf| && ParsedAll(buf, pos, cs) && |cs| < k
    requires 0 <= EndAll(buf, pos, cs) <= |buf| && Decode(buf, EndAll(buf, pos, cs)).Err?
    ensures DecodeChildren(buf, pos, k, counter) == Err(Decode(buf, EndAll(buf, pos, cs)).error)
    decreases cs
  {
    if |cs| > 0 {
      ParsedDecodes(buf, pos, cs[0]);
      var d := Decode(buf, pos).value;
      SiblingErrorPropagates(buf, d.next, cs[1..], k - 1, d.counter);
    }
  }

  /** An error anywhere among a directory's children keeps its kind: when
      the children before it are held and the next child's subtree fails
      to decode, the directory fails with that error. Applied at every
      level, a negative count or a bad name length in any nested record is
      reported as MalformedRecord. */
  lemma ChildErrorPropagates(buf: seq<byte>, pos: nat, rec: Record, cs: seq<Node>, e: Error)
    requires pos <= |buf| && ReadRecord(buf, pos) == Ok(rec) && rec.node.isDir
    requires ParsedAll(buf, rec.next, cs) && |cs| < rec.node.capacity
    requires 0 <= EndAll(buf, rec.next, cs) <= |buf| && Decode(buf, EndAll(buf, rec.next, cs)) == Err(e)
    ensures Decode(buf, pos) == Err(e)
  {
    SiblingErrorPropagates(buf, rec.next, cs, rec.node.capacity, rec.node.id + 1);
  }

  /** A child record with a negative count, after held siblings, makes its
      directory fail as malformed. */
  lemma ChildNegativeCountMalformed(buf: seq<byte>, pos: nat, rec: Record, cs: seq<Node>, q: int)
    requires pos <= |buf| && ReadRecord(buf, pos) == Ok(rec) && rec.node.isDir
    requires ParsedAll(buf, rec.next, cs) && |cs| < rec.node.capacity
    requires q == EndAll(buf, rec.next, cs)
    requires 0 <= q && q + 8 <= |buf| && 1 <= I32At(buf, q + 4)
    requires q + HeaderSize(I32At(buf, q + 4), 0) <= |buf|
    requires I32At(buf, q + 8 + I32At(buf, q + 4) + 6) < 0
    ensures Decode(buf, pos) == Err(MalformedRecord)
  {
    NegativeCountMalformed(buf, q);
    ChildErrorPropagates(buf, pos, rec, cs, MalformedRecord);
  }
}
